=== FILE: README.md ===
# JWT authentication core of a Spring Boot API, in Dafny

This project models how the API issues, reads, checks and revokes JSON Web
Tokens. It covers:

- `JwtService`: the claim set a login token carries, the format, signature,
  expiry and issuer checks, and the blacklist query.
- `BlackListService.create` and the `blacklisted_tokens` table, whose `token`
  column is UNIQUE.
- `JwtAuthFilter`: the per-request decision. It either writes the 401 body,
  lets an exception escape, or fills the security context and enters the chain.
- `UserService.authenticate` and `CustomUserDetailsService.loadUserByUsername`.
- `AuthController`: `login`, `addTokenToBlacklist` and `logout`.
- `GlobalExceptionHandler.handleValidException`: validation errors folded into a map.

Each Java component keeps its shape. The services and the controller are
functions over values. The blacklist table, the filter's response, its
security context and its filter chain are classes whose methods change their
fields. The exception handler's `forEach` is a loop with an invariant.

Clock reads are parameters. `now` is the time the JWT library compares
against. `clock` is `System.currentTimeMillis()` in the 401 body.

Java `long` arithmetic is modelled with its wrap-around. `Long.valueOf`,
`String.valueOf` and `String.split` (limit 0, so trailing empty strings are
dropped) are modelled exactly on ASCII text.

JSON Web Signature (section 7.1 of RFC 7515) is modelled by a stand-in with
the same observable structure:

- a token is `header.payload.signature`;
- the payload is an injective, dot-free encoding of the claims;
- the signature is an injective, dot-free function of the key and the signed
  text.

As in the JWT library, `iat` and `exp` are stored in whole seconds, and a
token is expired only when `now` is strictly after `exp`.

Two points follow from the code as written:

- The Javadoc of `isTokenExpired` (JwtService.java:146-148) promises true for
  an expired token, but the body answers the opposite; see "## Findings".
- `isTokenFormatValid`, `isIssuerToken` and `isBlackListedToken`
  (JwtService.java:111-118, 162-165, 173-176) have no caller. The filter only
  reads the subject, so a logged-out token keeps authenticating until it
  expires.

`SecurityConfig` puts the filter in front of every route, `/api/v1/auth/logout`
included. A client calling logout therefore sees the filter's answers first:
the 401 body when the header does not start with "Bearer ", and the parser's
exception for an expired or forged token. The `AuthController` rows describe
the controller methods called directly; `AuthController.LogoutBehindFilter`
states what is left of `logout` behind the filter.

## Model

| member | source | states |
|---|---|---|
| JavaLang.Wrap64 | src/main/java/dvn/local/dvnjs/services/JwtService.java:70 | `now + expirationTime` on `long` milliseconds equals the exact sum when it fits and wraps modulo 2^64 otherwise |
| JavaLang.LongRoundTrip | src/main/java/dvn/local/dvnjs/services/JwtService.java:74 | `Long.valueOf` of the `String.valueOf(userId)` written as subject gives back `userId`, for every `long` |
| JavaLang.SplitLength | src/main/java/dvn/local/dvnjs/services/JwtService.java:113 | the number of parts `split("\\.")` yields: 1 without a dot, 0 for dots only, otherwise one more than the dots left once trailing dots are trimmed |
| Jws.Parse | src/main/java/dvn/local/dvnjs/services/JwtService.java:88-92 | a token parses only if it has three segments, its signature is the MAC of header and payload under the key, and it has not expired (`now` not after `exp`) |
| Jws.SignParseRoundTrip | src/main/java/dvn/local/dvnjs/services/JwtService.java:73-92 | parsing what the builder compacted gives back the claims, with `iat`/`exp` cut to whole seconds, or the expiry error once `now` is past `exp` |
| Jws.OtherKeyRejected | src/main/java/dvn/local/dvnjs/services/JwtService.java:88-92 | a token signed under one secret is refused with a signature error under any other secret |
| Jws.TamperedSignatureRejected | src/main/java/dvn/local/dvnjs/services/JwtService.java:126-133 | replacing the signature segment by anything else non-empty gives the signature error, even past the expiry |
| JwtService.JwtService.SigningKey | src/main/java/dvn/local/dvnjs/services/JwtService.java:141-144 | the key `getSigningKey()` builds is the key the constructor built (line 59), so tokens accepted through either coincide |
| JwtService.JwtService.BuildClaims | src/main/java/dvn/local/dvnjs/services/JwtService.java:68-78 | `sub` reads back as the user id, `email` and `iss` are the argument and the configured issuer, `iat = now`, `exp` is `now + TTL` modulo 2^64, and `exp - iat = TTL` when no overflow occurs |
| JwtService.JwtService.GenerateToken | src/main/java/dvn/local/dvnjs/services/JwtService.java:68-81 | the compacted token has exactly three dot-separated segments: the HS512 header, and last the signature under the constructor's key over the first two |
| JwtService.JwtService.GetAllClaimsFromToken | src/main/java/dvn/local/dvnjs/services/JwtService.java:181-187 | parsing with `getSigningKey()` succeeds exactly when parsing with the constructor's key does, with the same claims, whose `exp` (if any) is not before `now`; otherwise the parser's exception |
| JwtService.JwtService.GetClaimFromToken | src/main/java/dvn/local/dvnjs/services/JwtService.java:193-196 | the resolver applied to the parsed claims, or the parser's exception |
| JwtService.JwtService.GetUserIdFromJwt | src/main/java/dvn/local/dvnjs/services/JwtService.java:87-94 | succeeds exactly when `getAllClaimsFromToken` does and returns its subject; otherwise throws the same exception |
| JwtService.JwtService.GetEmailFromJwt | src/main/java/dvn/local/dvnjs/services/JwtService.java:99-106 | succeeds exactly when `getAllClaimsFromToken` does and returns its "email" claim; otherwise throws the same exception |
| JwtService.JwtService.GeneratedTokenParses | src/main/java/dvn/local/dvnjs/services/JwtService.java:68-92 | a generated token parses to its claims up to its expiry instant and gives the expiry error after it |
| JwtService.JwtService.GeneratedTokenClaims | src/main/java/dvn/local/dvnjs/services/JwtService.java:181-187 | until expiry `getAllClaimsFromToken` of a generated token yields the subject, email, issuer, and `iat`/`exp` in whole seconds |
| JwtService.JwtService.SignedClaims | src/main/java/dvn/local/dvnjs/services/JwtService.java:73-78 | the claim set the builder signs carries the decimal user id, the email, the issuer, and `iat`/`exp` in whole seconds |
| JwtService.JwtService.SubjectAndEmailRoundTrip | src/main/java/dvn/local/dvnjs/services/JwtService.java:87-106 | until expiry `getUserIdFromJwt` returns `String.valueOf(userId)` and `getEmailFromJwt` returns the email of a generated token |
| JwtService.JwtService.ExpiredTokenThrows | src/main/java/dvn/local/dvnjs/services/JwtService.java:87-135 | past the expiry every reader throws the expiry exception; `isSignatureValid` throws instead of answering false |
| JwtService.JwtService.IsSignatureValid | src/main/java/dvn/local/dvnjs/services/JwtService.java:124-135 | true exactly when the token parses, false exactly on a signature mismatch, and for expired or malformed tokens the parser's own exception, thrown on |
| JwtService.JwtService.ForgedSignatureInvalid | src/main/java/dvn/local/dvnjs/services/JwtService.java:124-135 | a token whose signature segment was replaced answers false |
| JwtService.JwtService.IsTokenExpired | src/main/java/dvn/local/dvnjs/services/JwtService.java:150-157 | true exactly when the token parses and its expiration is strictly after `now`; false when the parser reports expiry or the expiration equals `now`; a parsed token without `exp` throws NullPointerException at `expiration.after`; every other parser exception (bad signature, malformed) propagates |
| JwtService.JwtService.IsTokenExpiredInverted | src/main/java/dvn/local/dvnjs/services/JwtService.java:146-157 | on a generated token checked before its expiry instant the answer is true, and at or after it false; at the expiry instant itself the token is still accepted, yet the answer is already false. This is the opposite of its documentation |
| JwtService.JwtService.IsTokenExpiredIntended | src/main/java/dvn/local/dvnjs/services/JwtService.java:146-149 | the documented check: true when the parser reports expiry, and only then; a parsed token answers false, or throws NullPointerException without `exp`; every other parser exception propagates |
| JwtService.JwtService.IsTokenExpiredIntendedCorrect | src/main/java/dvn/local/dvnjs/services/JwtService.java:146-149 | the documented check on a generated token answers true exactly after its expiry |
| JwtService.JwtService.IsIssuerToken | src/main/java/dvn/local/dvnjs/services/JwtService.java:162-165 | fails exactly when parsing fails; true exactly when the parsed `iss` equals the configured issuer; a missing `iss` gives false; the exception thrown is the parser's own |
| JwtService.JwtService.GeneratedTokenIssuer | src/main/java/dvn/local/dvnjs/services/JwtService.java:162-165 | a generated token passes the issuer check until it expires |
| JwtService.JwtService.ForeignIssuerRejected | src/main/java/dvn/local/dvnjs/services/JwtService.java:162-165 | a correctly signed token with another issuer, or none, fails the issuer check |
| JwtService.JwtService.IsBlackListedToken | src/main/java/dvn/local/dvnjs/services/JwtService.java:173-176 | true exactly when some blacklist row holds the token; only reads the table |
| JwtService.JwtService.IsTokenFormatValid | src/main/java/dvn/local/dvnjs/services/JwtService.java:111-118 | false for a null token and for a token without a dot; true only when the token holds at least two dots |
| JwtService.JwtService.FormatValidIff | src/main/java/dvn/local/dvnjs/services/JwtService.java:111-118 | the format check holds exactly when, after trimming trailing dots, something remains and it holds exactly two dots |
| JwtService.JwtService.FormatExamplesValid | src/main/java/dvn/local/dvnjs/services/JwtService.java:111-118 | "a.b.c" and "a.b.c." pass the format check (trailing empty segments are dropped) |
| JwtService.JwtService.FormatExampleEmptySegment | src/main/java/dvn/local/dvnjs/services/JwtService.java:111-118 | "a..c" passes the format check (an inner empty segment still counts) |
| JwtService.JwtService.FormatExamplesTooFew | src/main/java/dvn/local/dvnjs/services/JwtService.java:111-118 | "a.b", "" and a null token fail the format check |
| JwtService.JwtService.FormatExampleFourSegments | src/main/java/dvn/local/dvnjs/services/JwtService.java:111-118 | "a.b.c.d" fails the format check |
| JwtService.JwtService.FormatExampleOnlyDots | src/main/java/dvn/local/dvnjs/services/JwtService.java:111-118 | "..." fails the format check (it splits into no segments at all) |
| JwtService.JwtService.GeneratedTokenFormatValid | src/main/java/dvn/local/dvnjs/services/JwtService.java:111-118 | every generated token passes the format check |
| Blacklist.NewRow | src/main/java/dvn/local/dvnjs/modules/users/entities/BlacklistedToken.java:45-52 | a saved row carries its token and has `createdAt` and `updatedAt` both set to the insert time |
| Blacklist.InsertKeepsUnique | src/main/java/dvn/local/dvnjs/modules/users/entities/BlacklistedToken.java:32-33 | appending a row whose token is not stored keeps tokens unique and adds exactly that token to the stored set |
| Blacklist.BlacklistedTokenRepository.ExistsByToken | src/main/java/dvn/local/dvnjs/modules/users/repositories/BlacklistedTokenRepository.java:23 | true exactly when some row holds the token |
| Blacklist.BlacklistedTokenRepository.Save | src/main/java/dvn/local/dvnjs/modules/users/services/impl/BlackListService.java:81 | a token already stored violates the UNIQUE column and changes nothing; otherwise the row is appended with the next id and both stamps set, keeping the table valid |
| BlackListService.Create | src/main/java/dvn/local/dvnjs/modules/users/services/impl/BlackListService.java:48-93 | the message returned and the table afterwards are those `Register` gives for the old table, and the table stays valid |
| BlackListService.Extract | src/main/java/dvn/local/dvnjs/modules/users/services/impl/BlackListService.java:58-64 | a parse failure propagates unchanged; the result is a user id and an expiry exactly when the claims parse, the subject is present and numeric, and `exp` is present; then they are the subject read as a `long` and `exp` |
| BlackListService.Register | src/main/java/dvn/local/dvnjs/modules/users/services/impl/BlackListService.java:48-93 | a stored token answers "already registered" with the table unchanged; the success message exactly when one row is added; that row is added only for an unstored token whose claims were read, keeps the earlier rows, advances the id, and is exactly the token with the subject read as a `long` as user id, the claim's `exp` as expiry, and both stamps at `now`; otherwise the table is unchanged |
| BlackListService.OccurrencesUnique | src/main/java/dvn/local/dvnjs/modules/users/entities/BlacklistedToken.java:32-33 | with the UNIQUE constraint a token occurs once if stored and not at all otherwise |
| BlackListService.RegisterKeepsUnique | src/main/java/dvn/local/dvnjs/modules/users/services/impl/BlackListService.java:51-81 | `create` keeps tokens unique |
| BlackListService.RegisterShape | src/main/java/dvn/local/dvnjs/modules/users/services/impl/BlackListService.java:51-81 | after `create` the token is stored at most once, earlier rows are untouched, and the table is unchanged or grew by one row for that token created now |
| BlackListService.CreateTwice | src/main/java/dvn/local/dvnjs/modules/users/services/impl/BlackListService.java:51-81 | idempotence: once a `create` has stored the token, a second answers "already registered", changes nothing, and the token is stored exactly once |
| BlackListService.StoredTokenReportedAtAnyTime | src/main/java/dvn/local/dvnjs/modules/users/services/impl/BlackListService.java:51-58 | a stored token is answered "already registered" even after it expired |
| BlackListService.RegisterIssuedToken | src/main/java/dvn/local/dvnjs/modules/users/services/impl/BlackListService.java:58-86 | for a new, unexpired issued token exactly one row is added: the token, the numeric subject as user id, the token's own expiry, stamps set to now |
| BlackListService.IssuedTokenStored | src/main/java/dvn/local/dvnjs/modules/users/services/impl/BlackListService.java:51-81 | until its expiry an issued token is in the table after `create` |
| BlackListService.ExpiredTokenNotRegistered | src/main/java/dvn/local/dvnjs/modules/users/services/impl/BlackListService.java:58-92 | an expired token not yet stored cannot be blacklisted: the table is unchanged and the message carries the expiry exception text |
| BlackListService.FailureLeavesTableUnchanged | src/main/java/dvn/local/dvnjs/modules/users/services/impl/BlackListService.java:88-92 | every failure leaves the table unchanged and returns the fixed prefix followed by the exception text |
| JwtAuthFilter.FilterChain.DoFilter | src/main/java/dvn/local/dvnjs/helpers/JwtAuthFilter.java:96 | entering the chain counts one invocation |
| JwtAuthFilter.SendErrorResponse | src/main/java/dvn/local/dvnjs/helpers/JwtAuthFilter.java:100-122 | status and JSON content type set; the body map has exactly the keys timestamp, status, error, message and path, with status and path the given code and the request URI |
| JwtAuthFilter.Decide | src/main/java/dvn/local/dvnjs/helpers/JwtAuthFilter.java:59-75 | the 401 body is written exactly when the header is missing or does not start with "Bearer " |
| JwtAuthFilter.DecideToken | src/main/java/dvn/local/dvnjs/helpers/JwtAuthFilter.java:75-96 | a bearer token never gives the 401 body; a parse failure escapes; an existing authentication with a token that parses is kept and the chain entered; a token without subject leaves the context as it is; with an empty context and a subject, a failure of `loadUserByUsername` escapes, and otherwise the context is filled with the principal it returns, no authorities and the remote address |
| JwtAuthFilter.DoFilterInternal | src/main/java/dvn/local/dvnjs/helpers/JwtAuthFilter.java:52-98 | rejected: 401 body, chain and context untouched; escaped: the exception leaves with nothing changed; otherwise the context holds the decided authentication and the chain is entered once |
| JwtAuthFilter.NoBearerRejected | src/main/java/dvn/local/dvnjs/helpers/JwtAuthFilter.java:59-72 | without a header starting with "Bearer " every request, the login route included, is rejected |
| JwtAuthFilter.ExaminedToken | src/main/java/dvn/local/dvnjs/helpers/JwtAuthFilter.java:75 | the token examined is the header with its first seven characters removed |
| JwtAuthFilter.ExistingAuthenticationKept | src/main/java/dvn/local/dvnjs/helpers/JwtAuthFilter.java:80-90 | an authentication already in the context is never replaced: the request is rejected, the parse error of its token escapes, or the context is kept |
| JwtAuthFilter.ParsedTokenKeepsAuthentication | src/main/java/dvn/local/dvnjs/helpers/JwtAuthFilter.java:78-96 | a bearer token that parses, with an authentication already in the context, enters the chain with that authentication untouched |
| JwtAuthFilter.ContinuedRequestParses | src/main/java/dvn/local/dvnjs/helpers/JwtAuthFilter.java:66-78 | a request that reaches the chain has a "Bearer " header of at least seven characters whose token the parser accepts |
| JwtAuthFilter.ParseFailureEscapes | src/main/java/dvn/local/dvnjs/helpers/JwtAuthFilter.java:78 | a token the parser refuses makes the filter throw, without a 401 body |
| JwtAuthFilter.IssuedTokenAuthenticates | src/main/java/dvn/local/dvnjs/helpers/JwtAuthFilter.java:75-93 | a token generated for a user row, presented as a bearer header before it expires with an empty context, authenticates that row as a principal named by its email with no authorities |
| JwtAuthFilter.LoginTokenAuthenticates | src/main/java/dvn/local/dvnjs/helpers/JwtAuthFilter.java:75-93 | the token of a successful login authenticates, before expiry, the user found by that email, as a principal named by the email with no authorities |
| JwtAuthFilter.RevokedTokenStillAuthenticates | src/main/java/dvn/local/dvnjs/helpers/JwtAuthFilter.java:52-98 | the blacklist is not consulted: after logout stored a login token, that token still authenticates its user until expiry |
| Users.FindById | src/main/java/dvn/local/dvnjs/modules/users/services/impl/CustomUserDetailsService.java:34 | some row with the id exists exactly when a row is returned, and the returned row has that id |
| Users.FindByEmail | src/main/java/dvn/local/dvnjs/modules/users/services/impl/UserService.java:49-53 | nothing is returned exactly when no row has the email; otherwise the first row in table order with it |
| Users.FindByIdOfRow | src/main/java/dvn/local/dvnjs/modules/users/services/impl/CustomUserDetailsService.java:34 | with unique ids, looking up a row's id returns that row |
| CustomUserDetailsService.LoadUserByUsername | src/main/java/dvn/local/dvnjs/modules/users/services/impl/CustomUserDetailsService.java:31-46 | a non-numeric argument fails the parse before any lookup; a missing id gives UsernameNotFoundException; success exactly when the row exists with a non-empty email, giving the email of the row `findById` returned as username, its hash as password and no authorities |
| CustomUserDetailsService.SubjectOfRowLoadsRow | src/main/java/dvn/local/dvnjs/modules/users/services/impl/CustomUserDetailsService.java:34-45 | the subject written for a row's id loads that row's principal |
| CustomUserDetailsService.NonNumericSubjectRefused | src/main/java/dvn/local/dvnjs/modules/users/services/impl/CustomUserDetailsService.java:34 | for a non-numeric argument the result does not depend on the table |
| UserService.CredentialsError | src/main/java/dvn/local/dvnjs/modules/users/services/impl/UserService.java:81-87 | the error resource has the fixed top-level message and a single "message" entry with the credential-failure text |
| UserService.Authenticate | src/main/java/dvn/local/dvnjs/modules/users/services/impl/UserService.java:46-92 | a login resource exactly when the first user with the email (the row `findByEmail` returns) has a matching password; the token is then `generateToken(id, email)` of that same row and the user resource its id, email and name; the credential error otherwise |
| UserService.FailuresIndistinguishable | src/main/java/dvn/local/dvnjs/modules/users/services/impl/UserService.java:49-60 | an unknown email and a wrong password give the same answer |
| UserService.LoginTokenCarriesUser | src/main/java/dvn/local/dvnjs/modules/users/services/impl/UserService.java:63-73 | the token handed out reads back, until it expires, as the user's id and email |
| AuthController.ResponseFor | src/main/java/dvn/local/dvnjs/modules/users/controllers/AuthController.java:58-72 | 200 exactly for a login resource, 422 exactly for an error resource, 500 with the fixed text for anything else |
| AuthController.Login | src/main/java/dvn/local/dvnjs/modules/users/controllers/AuthController.java:52-73 | 200 exactly when the credentials are accepted, with the login resource `authenticate` returned as body; 422 with the credential error otherwise; never 500 |
| AuthController.AddTokenToBlacklist | src/main/java/dvn/local/dvnjs/modules/users/controllers/AuthController.java:78-91 | always 200 with the message `create` returns and the table it leaves |
| AuthController.Logout | src/main/java/dvn/local/dvnjs/modules/users/controllers/AuthController.java:96-116 | the method called directly: 500 with the network-error message exactly when the header is shorter than seven characters, with the table unchanged; otherwise 200 with the message and the table that `create` gives for the header minus its first seven characters, blank or not |
| AuthController.LogoutIgnoresPrefix | src/main/java/dvn/local/dvnjs/modules/users/controllers/AuthController.java:99 | the seven characters dropped from the header are never checked |
| AuthController.LogoutTwice | src/main/java/dvn/local/dvnjs/modules/users/controllers/AuthController.java:96-109 | two logouts with the same header answer 200 twice, the second "already registered", and the token is stored once |
| AuthController.ExpiredLogoutAnswersOk | src/main/java/dvn/local/dvnjs/modules/users/controllers/AuthController.java:106-109 | the method called directly with an expired token answers 200 with the error message from `create` and stores nothing; at the endpoint the filter throws first |
| AuthController.AddAndLogoutAgree | src/main/java/dvn/local/dvnjs/modules/users/controllers/AuthController.java:78-109 | `addTokenToBlacklist(t)` and `logout("Bearer " + t)` act alike |
| AuthController.LogoutBehindFilter | src/main/java/dvn/local/dvnjs/config/SecurityConfig.java:49-60 | logout sits behind the filter: what reaches it has a header of at least seven characters and a token that parses, so it answers 200 and `create` reports no parse error; the endpoint's 401 and escaping parse error are the filter's |
| GlobalExceptionHandler.HandleValidException | src/main/java/dvn/local/dvnjs/helpers/GlobalExceptionHandler.java:31-51 | the cast fails exactly when some error is not a field error; otherwise status 422, the fixed message, and a map giving each field the last message for it and holding no other keys |
| GlobalExceptionHandler.LastWins | src/main/java/dvn/local/dvnjs/helpers/GlobalExceptionHandler.java:43 | when a field has several errors the last one in list order gives its message |
| GlobalExceptionHandler.KeyIffFieldError | src/main/java/dvn/local/dvnjs/helpers/GlobalExceptionHandler.java:37-44 | a field has an entry exactly when some field error names it |

## Left out

- HMAC-SHA512, base64url and JSON inside the JWT library: the signature is a stand-in function. It shares the properties the code relies on (a different key or text gives a different signature; no dots), but it is not HMAC.
- `WeakKeyException`: the key is built from the Base64 encoding of the secret, so `hmacShaKeyFor` refuses secrets shorter than 22 bytes in the constructor (encoding under 32 bytes), and HS512 signing refuses secrets shorter than 46 bytes (encoding under 64 bytes). Every secret is accepted here.
- The library's handling of malformed headers, unsupported algorithms, not-before claims and clock skew: all malformed input is one `Malformed` error.
- Exception texts produced by the JDK, Spring and the JWT library are stand-ins. The Japanese texts written in the repository are exact.
- Time-zone conversion from `Date` to `LocalDateTime` when the expiry is stored: treated as the identity on milliseconds.
- The race between `existsByToken` and `save` under concurrent requests: calls are sequential, and the UNIQUE column is the invariant.
- BCrypt: `passwordEncoder.matches` is a parameter.
- Several clock reads within one call are one `now`: `isTokenExpired` parses at one instant and compares with a second `new Date()`, and `create` reads the claims before Hibernate stamps `createdAt`. The few milliseconds between them are not modelled.
- Repositories as persistence: the blacklist table is a class over a sequence of rows, and the users table is a sequence of rows. `findByEmail` is not declared by `UserRepository`; it is modelled as the first row with that email. On a table with two rows sharing an email, a Spring Data derived query returning `Optional<User>` throws `IncorrectResultSizeDataAccessException` instead; that exception is not modelled.
- `JwtConfig` declares no issuer getter: the issuer is a configuration value next to the secret and the time-to-live.
- Null values, except where the code branches on them (the `Authorization` header, the subject, `iss` and `exp` of parsed claims, a null token in the format check). A missing `Authorization` header on `logout` is refused by Spring before the method runs and is not modelled.
- `Long.parseLong` also accepts non-ASCII Unicode digits: only ASCII digits are accepted here.
- `AuthController.IsBlank` and `AuthController.AddTokenToBlacklist`: `@NotBlank` is a precondition. Blank means what `String.trim` strips, every character up to the space. The 422 answer that validation gives a blank token is not connected to `handleValidException`.
- `updatedAt` of a blacklist row: nothing in the code updates a row, so the refresh on update is never exercised.
- `User` lifecycle hooks, `UserController`, the rest of `SecurityConfig` (only the filter's place in front of logout is modelled), the database seeder, logging, and the `ObjectMapper` serialisation of the 401 map: Spring wiring and I/O.
- `WebAuthenticationDetailsSource` details are reduced to the remote address.
- The null credentials of the authentication token are not kept.

## Findings

| source | as written | input that shows it | evidently intended | confidence | as-written member | corrected member |
|---|---|---|---|---|---|---|
| src/main/java/dvn/local/dvnjs/services/JwtService.java:150-157 | returns `expiration.after(now)`, and false when the parser reports expiry | with a time-to-live of at least one second (`exp` is cut to whole seconds), a token generated at `iat` and checked at `iat` answers true; checked after its expiry, false | true once the token has expired, false while it is valid, as the comment at lines 146-148 says | high; not executed | JwtService.JwtService.IsTokenExpiredInverted | JwtService.JwtService.IsTokenExpiredIntendedCorrect |

=== FILE: AuthController.dfy ===
/**
 * `AuthController`: `login` maps what `authenticate` returns to a status;
 * `addTokenToBlacklist` and `logout` hand a token to `BlackListService.create`
 * and answer 200 with whatever message it returns.
 */
module AuthController {
  import opened Wrappers
  import opened JavaLang
  import opened Failures
  import opened Jws
  import opened Resources
  import opened Users
  import opened JwtService
  import opened UserService
  import opened Blacklist
  import opened BlackListService
  import JwtAuthFilter

  const NetworkError: string := "ネットワークエラーが発生しました。"

  /** The `@NotBlank` request body of `addTokenToBlacklist`. */
  datatype BlacklistTokenRequest = BlacklistTokenRequest(token: string)

  /** A response together with the blacklist table it leaves behind. */
  datatype Exchange = Exchange(response: ResponseEntity, rows: seq<BlacklistedToken>, nextId: nat)

  /**
   * What `String.trim` strips: every character up to and including the space,
   * control characters included.
   */
  predicate IsWhitespace(c: char)
  {
    c <= ' '
  }

  /** What `@NotBlank` refuses: `value.trim()` is empty, so nothing above the space. */
  predicate IsBlank(s: string)
  {
    forall i :: 0 <= i < |s| ==> IsWhitespace(s[i])
  }

  /**
   * The status `login` gives the object `authenticate` returned: 200 for a
   * LoginResource, 422 for an ErrorResource, 500 with a fixed text for
   * anything else.
   */
  function ResponseFor(result: Body): (r: ResponseEntity)
    ensures r.status == Ok <==> result.LoginBody?
    ensures r.status == UnprocessableEntity <==> result.ErrorBody?
    ensures r.status == InternalServerError <==> !result.LoginBody? && !result.ErrorBody?
    ensures r.status != InternalServerError ==> r.body == result
    ensures r.status == InternalServerError ==> r.body == TextBody(AuthenticationFailed)
  {
    match result
    case LoginBody(_) => ResponseEntity(Ok, result)
    case ErrorBody(_) => ResponseEntity(UnprocessableEntity, result)
    case _ => ResponseEntity(InternalServerError, TextBody(AuthenticationFailed))
  }

  /**
   * `login`: 200 with the login resource exactly when the first user with the
   * email has a matching password, 422 with the credential error otherwise;
   * the 500 branch is never taken.
   */
  function Login(svc: JwtService, users: seq<User>, matches: PasswordMatcher, request: LoginRequest, now: Long)
    : (r: ResponseEntity)
    ensures r.status == Ok || r.status == UnprocessableEntity
    ensures r.status == Ok <==>
      (exists i :: 0 <= i < |users| && FindByEmail(users, request.email) == Some(users[i])
                   && matches(request.password, users[i].password))
    ensures r.status == Ok ==> r.body.LoginBody? && r.body == Authenticate(svc, users, matches, request, now)
    ensures r.status == UnprocessableEntity ==> r.body == CredentialsError()
  {
    ResponseFor(Authenticate(svc, users, matches, request, now))
  }

  /** `addTokenToBlacklist`: 200 with the message `create` returns, which never throws. */
  function AddTokenToBlacklist(svc: JwtService, rows: seq<BlacklistedToken>, nextId: nat,
                               request: BlacklistTokenRequest, now: Long): (r: Exchange)
    requires !IsBlank(request.token)
    ensures r.response.status == Ok
    ensures var reg := Register(svc, rows, nextId, request.token, now);
      r == Exchange(ResponseEntity(Ok, MessageBody(reg.message)), reg.rows, reg.nextId)
  {
    var reg := Register(svc, rows, nextId, request.token, now);
    Exchange(ResponseEntity(Ok, MessageBody(reg.message)), reg.rows, reg.nextId)
  }

  /**
   * `logout(bearerToken)`: the header minus its first seven characters, with no
   * check of what they are, goes to `create`; a header shorter than that makes
   * `substring` throw, answered with 500 and the network-error message.
   */
  function Logout(svc: JwtService, rows: seq<BlacklistedToken>, nextId: nat, bearerToken: string, now: Long)
    : (r: Exchange)
    ensures r.response.status == InternalServerError <==> |bearerToken| < 7
    ensures r.response.status == Ok <==> |bearerToken| >= 7
    ensures |bearerToken| < 7 ==>
      r == Exchange(ResponseEntity(InternalServerError, MessageBody(MessageResource(NetworkError))), rows, nextId)
    ensures |bearerToken| >= 7 ==> var reg := Register(svc, rows, nextId, bearerToken[7..], now);
      r == Exchange(ResponseEntity(Ok, MessageBody(reg.message)), reg.rows, reg.nextId)
  {
    if |bearerToken| < 7 then
      Exchange(ResponseEntity(InternalServerError, MessageBody(MessageResource(NetworkError))), rows, nextId)
    else
      var reg := Register(svc, rows, nextId, bearerToken[7..], now);
      Exchange(ResponseEntity(Ok, MessageBody(reg.message)), reg.rows, reg.nextId)
  }

  // -------------------------------------------------------------------
  // Properties

  /** The seven characters `logout` drops are never looked at. */
  lemma LogoutIgnoresPrefix(svc: JwtService, rows: seq<BlacklistedToken>, nextId: nat,
                            p: string, q: string, token: string, now: Long)
    requires |p| == 7 && |q| == 7
    ensures Logout(svc, rows, nextId, p + token, now) == Logout(svc, rows, nextId, q + token, now)
  {
    assert (p + token)[7..] == token;
    assert (q + token)[7..] == token;
  }

  /**
   * Logging out twice with the same header answers 200 both times; the second
   * answer is "already registered" and the table holds that token once.
   */
  lemma LogoutTwice(svc: JwtService, rows: seq<BlacklistedToken>, nextId: nat,
                    userId: Long, email: string, issuedAt: Long, t1: Long, t2: Long)
    requires TokensUnique(rows)
    requires t1 <= svc.ExpiryMillis(issuedAt)
    ensures var header := "Bearer " + svc.GenerateToken(userId, email, issuedAt);
      var first := Logout(svc, rows, nextId, header, t1);
      var second := Logout(svc, first.rows, first.nextId, header, t2);
      && first.response.status == Ok
      && second.response == ResponseEntity(Ok, MessageBody(MessageResource(AlreadyRegistered)))
      && second.rows == first.rows
      && Occurrences(second.rows, svc.GenerateToken(userId, email, issuedAt)) == 1
  {
    var token := svc.GenerateToken(userId, email, issuedAt);
    var header := "Bearer " + token;
    assert header[7..] == token;
    if !Stored(rows, token) {
      RegisterIssuedToken(svc, rows, nextId, userId, email, issuedAt, t1);
    }
    CreateTwice(svc, rows, nextId, token, t1, t2);
  }

  /**
   * Logging out with an expired token that is not yet stored still answers
   * 200, with the error message `create` built, and stores nothing.
   */
  lemma ExpiredLogoutAnswersOk(svc: JwtService, rows: seq<BlacklistedToken>, nextId: nat,
                               userId: Long, email: string, issuedAt: Long, now: Long)
    requires !Stored(rows, svc.GenerateToken(userId, email, issuedAt))
    requires now > svc.ExpiryMillis(issuedAt)
    ensures Logout(svc, rows, nextId, "Bearer " + svc.GenerateToken(userId, email, issuedAt), now)
      == Exchange(ResponseEntity(Ok, MessageBody(MessageResource(FailurePrefix + Message(JwtException(Expired))))),
                  rows, nextId)
  {
    var token := svc.GenerateToken(userId, email, issuedAt);
    assert ("Bearer " + token)[7..] == token;
    ExpiredTokenNotRegistered(svc, rows, nextId, userId, email, issuedAt, now);
  }

  /**
   * `/api/v1/auth/logout` is behind `JwtAuthFilter`: a request that the filter
   * lets through carries "Bearer " and a token that parses, so behind the filter
   * `logout` never takes its 500 branch and `create` never reports a parse
   * error (an expired or forged token); the 401 and the escaping parse error
   * are the filter's answers
   * (`JwtAuthFilter.NoBearerRejected`, `JwtAuthFilter.ParseFailureEscapes`).
   */
  lemma LogoutBehindFilter(svc: JwtService, users: seq<User>, rows: seq<BlacklistedToken>, nextId: nat,
                           request: JwtAuthFilter.Request, current: Option<JwtAuthFilter.Authentication>, now: Long)
    requires JwtAuthFilter.Decide(svc, users, request, current, now).Continued?
    ensures request.authorization.Some? && |request.authorization.value| >= 7
    ensures Parse(svc.key, request.authorization.value[7..], now).Success?
    ensures Logout(svc, rows, nextId, request.authorization.value, now).response.status == Ok
    ensures var e := Extract(svc, request.authorization.value[7..], now);
      e.Failure? ==> !e.error.JwtException?
  {
    JwtAuthFilter.ContinuedRequestParses(svc, users, request, current, now);
  }

  /** `addTokenToBlacklist` and `logout` with the bearer header of the same token act alike. */
  lemma AddAndLogoutAgree(svc: JwtService, rows: seq<BlacklistedToken>, nextId: nat, token: string, now: Long)
    requires !IsBlank(token)
    ensures AddTokenToBlacklist(svc, rows, nextId, BlacklistTokenRequest(token), now)
      == Logout(svc, rows, nextId, "Bearer " + token, now)
  {
    assert ("Bearer " + token)[7..] == token;
  }
}

=== FILE: BlackListService.dfy ===
/**
 * `BlackListService.create`: check that the token is not stored yet, read its
 * claims, build the entity and save it. Every exception on the way is caught
 * and turned into a message, so the call never throws.
 */
module BlackListService {
  import opened Wrappers
  import opened JavaLang
  import opened Jws
  import opened Failures
  import opened Blacklist
  import opened JwtService
  import opened Resources

  const AlreadyRegistered: string := "トークンは既に登録されています。"
  const RegisteredMessage: string := "トークンは正常にブラックリストへ登録されました。"
  const FailurePrefix: string := "ブラックリスト登録処理中にエラーが発生しました。 "
  /** Message of the NullPointerException `toInstant()` throws on a missing `exp`. */
  const NullExpiryDate: string :=
    "Cannot invoke \"java.util.Date.toInstant()\" because \"expiryDate\" is null"

  /**
   * The user id and expiry `create` extracts from the token's claims, or what
   * it throws: a parse failure, `Long.valueOf` on a missing or non-numeric
   * subject, or `toInstant()` on a missing expiration.
   */
  function Extract(svc: JwtService, token: string, now: Long): (r: Result<(Long, Long), Exception>)
    ensures svc.GetAllClaimsFromToken(token, now).Failure? ==>
      r == Failure(svc.GetAllClaimsFromToken(token, now).error)
    ensures r.Success? <==>
      var g := svc.GetAllClaimsFromToken(token, now);
      g.Success? && g.value.sub.Some? && ParseLong(g.value.sub.value).Some? && g.value.exp.Some?
    ensures r.Success? ==> var c := svc.GetAllClaimsFromToken(token, now).value;
      ParseLong(c.sub.value) == Some(r.value.0) && c.exp == Some(r.value.1)
  {
    match svc.GetAllClaimsFromToken(token, now)
    case Failure(e) => Failure(e)
    case Success(c) =>
      var userId := if c.sub.Some? then ParseLong(c.sub.value) else None;
      if userId.None? then Failure(NumberFormatException(c.sub))
      else if c.exp.None? then
        Failure(NullPointerException(NullExpiryDate))
      else Success((userId.value, c.exp.value))
  }

  /** The returned message and the table afterwards. */
  datatype Registration = Registration(message: MessageResource, rows: seq<BlacklistedToken>, nextId: nat)

  /** What `create(token)` does to a table holding `rows`, at time `now`. */
  function Register(svc: JwtService, rows: seq<BlacklistedToken>, nextId: nat, token: string, now: Long)
    : (reg: Registration)
    ensures Stored(rows, token) ==> reg == Registration(MessageResource(AlreadyRegistered), rows, nextId)
    ensures reg.message == MessageResource(RegisteredMessage) <==> |reg.rows| == |rows| + 1
    ensures |reg.rows| == |rows| + 1 ==>
      && !Stored(rows, token) && Extract(svc, token, now).Success?
      && reg.rows[..|rows|] == rows && reg.rows[|rows|].token == token && reg.nextId == nextId + 1
    ensures |reg.rows| == |rows| + 1 ==>
      reg.rows[|rows|] == NewRow(nextId, token, Some(Extract(svc, token, now).value.0),
                                 Extract(svc, token, now).value.1, now)
    ensures |reg.rows| != |rows| + 1 ==> reg.rows == rows && reg.nextId == nextId
  {
    if Stored(rows, token) then Registration(MessageResource(AlreadyRegistered), rows, nextId)
    else
      match Extract(svc, token, now)
      case Failure(e) => Registration(MessageResource(FailurePrefix + Message(e)), rows, nextId)
      case Success((userId, expiryDate)) =>
        Registration(MessageResource(RegisteredMessage),
                     rows + [NewRow(nextId, token, Some(userId), expiryDate, now)], nextId + 1)
  }

  /** `create`, on the repository object. */
  method Create(svc: JwtService, repository: BlacklistedTokenRepository, token: string, now: Long)
    returns (m: MessageResource)
    requires repository.Valid()
    modifies repository
    ensures repository.Valid()
    ensures var reg := Register(svc, old(repository.rows), old(repository.nextId), token, now);
      m == reg.message && repository.rows == reg.rows && repository.nextId == reg.nextId
  {
    if repository.ExistsByToken(token) {
      return MessageResource(AlreadyRegistered);
    }
    var extracted := Extract(svc, token, now);
    if extracted.Failure? {
      return MessageResource(FailurePrefix + Message(extracted.error));
    }
    var (userId, expiryDate) := extracted.value;
    var saved := repository.Save(token, Some(userId), expiryDate, now);
    // The existence check above leaves the UNIQUE constraint nothing to refuse.
    assert saved.Success?;
    m := MessageResource(RegisteredMessage);
  }

  /** How many rows hold `token`. */
  function Occurrences(rows: seq<BlacklistedToken>, token: string): nat
  {
    if rows == [] then 0
    else Occurrences(rows[..|rows| - 1], token) + (if rows[|rows| - 1].token == token then 1 else 0)
  }

  lemma {:induction false} OccurrencesUnique(rows: seq<BlacklistedToken>, token: string)
    requires TokensUnique(rows)
    ensures Occurrences(rows, token) == if Stored(rows, token) then 1 else 0
  {
    if rows != [] {
      var init, last := rows[..|rows| - 1], rows[|rows| - 1];
      assert rows == init + [last];
      forall i | 0 <= i < |init| ensures init[i] == rows[i] && init[i].token != last.token {
      }
      OccurrencesUnique(init, token);
      InsertKeepsUnique(init, last);
    }
  }

  /** `create` keeps the UNIQUE constraint on `token`. */
  lemma RegisterKeepsUnique(svc: JwtService, rows: seq<BlacklistedToken>, nextId: nat, token: string, now: Long)
    requires TokensUnique(rows)
    ensures TokensUnique(Register(svc, rows, nextId, token, now).rows)
  {
    if !Stored(rows, token) && Extract(svc, token, now).Success? {
      var (userId, expiryDate) := Extract(svc, token, now).value;
      InsertKeepsUnique(rows, NewRow(nextId, token, Some(userId), expiryDate, now));
    }
  }

  /**
   * Whatever `create` does, afterwards the table holds the token at most once,
   * the earlier rows are untouched (so their `createdAt` never changes), and
   * the table either is unchanged or grew by one row carrying that token.
   */
  lemma RegisterShape(svc: JwtService, rows: seq<BlacklistedToken>, nextId: nat, token: string, now: Long)
    requires TokensUnique(rows)
    ensures var r := Register(svc, rows, nextId, token, now);
      && Occurrences(r.rows, token) <= 1
      && r.rows[..|rows|] == rows
      && (r.rows == rows || (|r.rows| == |rows| + 1 && r.rows[|rows|].token == token && r.rows[|rows|].createdAt == now))
  {
    var r := Register(svc, rows, nextId, token, now);
    RegisterKeepsUnique(svc, rows, nextId, token, now);
    OccurrencesUnique(r.rows, token);
  }

  /**
   * Idempotence: once `create` has stored a token, a second `create` with the
   * same token answers "already registered", changes nothing, and the table
   * holds exactly one row for it.
   */
  lemma CreateTwice(svc: JwtService, rows: seq<BlacklistedToken>, nextId: nat, token: string, t1: Long, t2: Long)
    requires TokensUnique(rows)
    requires Stored(rows, token) || Extract(svc, token, t1).Success?
    ensures var r1 := Register(svc, rows, nextId, token, t1);
      var r2 := Register(svc, r1.rows, r1.nextId, token, t2);
      && r2 == Registration(MessageResource(AlreadyRegistered), r1.rows, r1.nextId)
      && Occurrences(r2.rows, token) == 1
  {
    var r1 := Register(svc, rows, nextId, token, t1);
    RegisterKeepsUnique(svc, rows, nextId, token, t1);
    assert Stored(r1.rows, token) by {
      if !Stored(rows, token) {
        assert r1.rows[|rows|].token == token;
      }
    }
    OccurrencesUnique(r1.rows, token);
  }

  /**
   * A token already stored is answered "already registered" at any time, even
   * after it expired: the existence check comes before the claims are read.
   */
  lemma StoredTokenReportedAtAnyTime(svc: JwtService, rows: seq<BlacklistedToken>, nextId: nat,
                                     userId: Long, email: string, issuedAt: Long, now: Long)
    requires Stored(rows, svc.GenerateToken(userId, email, issuedAt))
    requires now > svc.ExpiryMillis(issuedAt)
    ensures Register(svc, rows, nextId, svc.GenerateToken(userId, email, issuedAt), now)
      == Registration(MessageResource(AlreadyRegistered), rows, nextId)
  {
  }

  /**
   * Logging out a freshly issued token adds exactly one row: the token, the
   * numeric subject as user id, and the token's own expiry.
   */
  lemma RegisterIssuedToken(svc: JwtService, rows: seq<BlacklistedToken>, nextId: nat,
                            userId: Long, email: string, issuedAt: Long, now: Long)
    requires !Stored(rows, svc.GenerateToken(userId, email, issuedAt))
    requires now <= svc.ExpiryMillis(issuedAt)
    ensures var token := svc.GenerateToken(userId, email, issuedAt);
      Register(svc, rows, nextId, token, now)
        == Registration(MessageResource(RegisteredMessage),
                        rows + [BlacklistedToken(nextId, token, svc.ExpiryMillis(issuedAt), Some(userId), now, now)],
                        nextId + 1)
  {
    var token := svc.GenerateToken(userId, email, issuedAt);
    svc.GeneratedTokenClaims(userId, email, issuedAt, now);
    svc.GeneratedTokenParses(userId, email, issuedAt, now);
    LongRoundTrip(userId);
    assert Extract(svc, token, now) == Success((userId, svc.ExpiryMillis(issuedAt)));
  }

  /** Until it expires, an issued token is in the table after `create`, whether or not it was before. */
  lemma IssuedTokenStored(svc: JwtService, rows: seq<BlacklistedToken>, nextId: nat,
                          userId: Long, email: string, issuedAt: Long, now: Long)
    requires now <= svc.ExpiryMillis(issuedAt)
    ensures Stored(Register(svc, rows, nextId, svc.GenerateToken(userId, email, issuedAt), now).rows,
                   svc.GenerateToken(userId, email, issuedAt))
  {
    var token := svc.GenerateToken(userId, email, issuedAt);
    if !Stored(rows, token) {
      RegisterIssuedToken(svc, rows, nextId, userId, email, issuedAt, now);
      assert Register(svc, rows, nextId, token, now).rows[|rows|].token == token;
    }
  }

  /**
   * An expired token that is not stored cannot be blacklisted: the claims
   * cannot be read, the table is unchanged and the message carries the
   * exception text.
   */
  lemma ExpiredTokenNotRegistered(svc: JwtService, rows: seq<BlacklistedToken>, nextId: nat,
                                  userId: Long, email: string, issuedAt: Long, now: Long)
    requires !Stored(rows, svc.GenerateToken(userId, email, issuedAt))
    requires now > svc.ExpiryMillis(issuedAt)
    ensures Register(svc, rows, nextId, svc.GenerateToken(userId, email, issuedAt), now)
      == Registration(MessageResource(FailurePrefix + Message(JwtException(Expired))), rows, nextId)
  {
    svc.ExpiredTokenThrows(userId, email, issuedAt, now);
  }

  /** Any failure leaves the table as it was and reports the exception text after the fixed prefix. */
  lemma FailureLeavesTableUnchanged(svc: JwtService, rows: seq<BlacklistedToken>, nextId: nat, token: string, now: Long)
    requires !Stored(rows, token) && Extract(svc, token, now).Failure?
    ensures var r := Register(svc, rows, nextId, token, now);
      && r.rows == rows && r.nextId == nextId
      && r.message.message == FailurePrefix + Message(Extract(svc, token, now).error)
  {
  }
}

=== FILE: BlacklistedToken.dfy ===
/**
 * The `blacklisted_tokens` table: the entity `BlacklistedToken` and the part of
 * its repository the core uses (`existsByToken`, `save`).
 */
module Blacklist {
  import opened Wrappers
  import opened JavaLang
  import opened Failures

  /**
   * One row. `token` and `expiryDate` are NOT NULL, `userId` is nullable;
   * `createdAt` and `updatedAt` are the Hibernate creation and update stamps.
   */
  datatype BlacklistedToken = BlacklistedToken(
    id: nat,
    token: string,
    expiryDate: Long,
    userId: Option<Long>,
    createdAt: Long,
    updatedAt: Long)

  /** The UNIQUE constraint on the `token` column. */
  ghost predicate TokensUnique(rows: seq<BlacklistedToken>)
  {
    forall i, j :: 0 <= i < j < |rows| ==> rows[i].token != rows[j].token
  }

  predicate Stored(rows: seq<BlacklistedToken>, token: string)
  {
    exists i :: 0 <= i < |rows| && rows[i].token == token
  }

  /** What `save` makes of a new entity at time `now`: the next IDENTITY id, both stamps `now`. */
  function NewRow(id: nat, token: string, userId: Option<Long>, expiryDate: Long, now: Long): (row: BlacklistedToken)
    ensures row.token == token && row.createdAt == now && row.updatedAt == now
  {
    BlacklistedToken(id, token, expiryDate, userId, now, now)
  }

  /** Appending a row whose token is not yet stored keeps the constraint. */
  lemma InsertKeepsUnique(rows: seq<BlacklistedToken>, row: BlacklistedToken)
    requires TokensUnique(rows) && !Stored(rows, row.token)
    ensures TokensUnique(rows + [row])
    ensures forall t :: Stored(rows + [row], t) <==> Stored(rows, t) || t == row.token
  {
    var rows' := rows + [row];
    forall t ensures Stored(rows', t) <==> Stored(rows, t) || t == row.token {
      if Stored(rows, t) {
        var i :| 0 <= i < |rows| && rows[i].token == t;
        assert rows'[i] == rows[i];
      }
      if t == row.token {
        assert rows'[|rows|] == row;
      }
    }
  }

  class BlacklistedTokenRepository {
    var rows: seq<BlacklistedToken>
    var nextId: nat

    ghost predicate Valid()
      reads this
    {
      TokensUnique(rows) && forall i :: 0 <= i < |rows| ==> rows[i].id < nextId
    }

    constructor ()
      ensures Valid() && rows == [] && nextId == 1
    {
      rows := [];
      nextId := 1;
    }

    /** `existsByToken`. */
    function ExistsByToken(token: string): (b: bool)
      reads this
      ensures b <==> exists i :: 0 <= i < |rows| && rows[i].token == token
    {
      Stored(rows, token)
    }

    /**
     * `save` of a new entity. The UNIQUE constraint refuses a token already
     * stored (DataIntegrityViolationException) and leaves the table as it was;
     * otherwise the new row is appended and no earlier row changes.
     */
    method Save(token: string, userId: Option<Long>, expiryDate: Long, now: Long)
      returns (r: Result<BlacklistedToken, Exception>)
      requires Valid()
      modifies this
      ensures Valid()
      ensures old(Stored(rows, token)) ==> r == Failure(DataIntegrityViolationException) && unchanged(this)
      ensures !old(Stored(rows, token)) ==>
        && r == Success(NewRow(old(nextId), token, userId, expiryDate, now))
        && rows == old(rows) + [r.value]
        && nextId == old(nextId) + 1
    {
      if Stored(rows, token) {
        return Failure(DataIntegrityViolationException);
      }
      var row := NewRow(nextId, token, userId, expiryDate, now);
      InsertKeepsUnique(rows, row);
      rows := rows + [row];
      nextId := nextId + 1;
      r := Success(row);
    }
  }
}

=== FILE: CustomUserDetailsService.dfy ===
/**
 * `CustomUserDetailsService.loadUserByUsername`: the JWT subject, parsed as a
 * `Long`, is the primary key of the user; the principal it yields is the
 * Spring Security `User` named by the email.
 */
module CustomUserDetailsService {
  import opened Wrappers
  import opened JavaLang
  import opened Failures
  import opened Users

  const UserMissing: string := "ユーザーが存在ございません。"

  /** The Spring Security principal: username, password hash, granted authorities. */
  datatype UserDetails = UserDetails(username: string, password: string, authorities: seq<string>)

  /**
   * `loadUserByUsername(userId)`. `Long.valueOf` throws on a non-numeric
   * argument before the table is read; a missing row throws
   * UsernameNotFoundException; the `User` constructor refuses an empty
   * username.
   */
  function LoadUserByUsername(users: seq<User>, userId: string): (r: Result<UserDetails, Exception>)
    ensures ParseLong(userId).None? ==> r == Failure(NumberFormatException(Some(userId)))
    ensures ParseLong(userId).Some? && (forall i :: 0 <= i < |users| ==> users[i].id != ParseLong(userId).value) ==>
      r == Failure(UsernameNotFoundException(UserMissing))
    ensures r.Success? <==>
      (exists i :: 0 <= i < |users| && Some(users[i].id) == ParseLong(userId) && users[i].email != ""
                   && FindById(users, users[i].id) == Some(users[i]))
    ensures r.Success? ==>
      (exists i :: 0 <= i < |users| && Some(users[i].id) == ParseLong(userId)
                   && r.value == UserDetails(users[i].email, users[i].password, []))
    ensures r.Success? ==>
      && ParseLong(userId).Some? && FindById(users, ParseLong(userId).value).Some?
      && var user := FindById(users, ParseLong(userId).value).value;
         r.value == UserDetails(user.email, user.password, [])
  {
    match ParseLong(userId)
    case None => Failure(NumberFormatException(Some(userId)))
    case Some(id) =>
      match FindById(users, id)
      case None => Failure(UsernameNotFoundException(UserMissing))
      case Some(user) =>
        if user.email == "" then
          Failure(IllegalArgumentException("Cannot pass null or empty values to constructor"))
        else
          Success(UserDetails(user.email, user.password, []))
  }

  /**
   * The subject `generateToken` writes for a row's id loads that row's
   * principal: its email as username, its hash as password, no authorities.
   */
  lemma SubjectOfRowLoadsRow(users: seq<User>, i: nat)
    requires IdsUnique(users) && i < |users| && users[i].email != ""
    ensures LoadUserByUsername(users, IntToString(users[i].id))
      == Success(UserDetails(users[i].email, users[i].password, []))
  {
    LongRoundTrip(users[i].id);
    FindByIdOfRow(users, i);
  }

  /** A subject that is not a decimal `long` is refused before any lookup, whatever the table holds. */
  lemma NonNumericSubjectRefused(users: seq<User>, others: seq<User>, userId: string)
    requires ParseLong(userId).None?
    ensures LoadUserByUsername(users, userId) == LoadUserByUsername(others, userId)
  {
  }
}

=== FILE: Failures.dfy ===
/**
 * The Java exceptions that reach a decision of the core, with the text
 * `getMessage()` gives for each. Texts produced inside jjwt and the JDK are
 * stand-ins; the texts written in the repository's own code are exact.
 */
module Failures {
  import opened Wrappers
  import opened Jws

  datatype Exception =
    | JwtException(error: JwtError)
    | NumberFormatException(input: Option<string>)
    | NullPointerException(text: string)
    | UsernameNotFoundException(text: string)
    | IllegalArgumentException(text: string)
    | DataIntegrityViolationException
    | ClassCastException
    | StringIndexOutOfBoundsException

  function Message(e: Exception): string
  {
    match e
    case JwtException(BadSignature) => "JWT signature does not match locally computed signature."
    case JwtException(Expired) => "JWT expired."
    case JwtException(Malformed) => "Malformed JWT."
    case NumberFormatException(None) => "Cannot parse null string: null"
    case NumberFormatException(Some(s)) => "For input string: \"" + s + "\""
    case NullPointerException(text) => text
    case UsernameNotFoundException(text) => text
    case IllegalArgumentException(text) => text
    case DataIntegrityViolationException => "could not execute statement; constraint [token]"
    case ClassCastException => "class ObjectError cannot be cast to class FieldError"
    case StringIndexOutOfBoundsException => "begin 7, end < 7"
  }
}

=== FILE: GlobalExceptionHandler.dfy ===
/**
 * `GlobalExceptionHandler.handleValidException`: the validation errors of a
 * request body, in list order, are put one by one into a map from field name
 * to message, so a later error on the same field overwrites an earlier one;
 * the map goes out in an ErrorResource with status 422.
 */
module GlobalExceptionHandler {
  import opened Wrappers
  import opened Failures
  import opened Resources

  const ValidationFailed: string := "データベースを確認するとき、エラー発生しました。"

  /** An entry of `getAllErrors()`: an error on one field, or one on the whole object. */
  datatype ObjectError =
    | FieldError(field: string, defaultMessage: string)
    | GlobalError(objectName: string, defaultMessage: string)

  predicate IsFieldErrorOn(error: ObjectError, field: string)
  {
    error.FieldError? && error.field == field
  }

  /** The message of the last error on `field`, scanning the list from its end. */
  function LastMessageFor(errors: seq<ObjectError>, field: string): Option<string>
  {
    if errors == [] then None
    else if IsFieldErrorOn(errors[|errors| - 1], field) then Some(errors[|errors| - 1].defaultMessage)
    else LastMessageFor(errors[..|errors| - 1], field)
  }

  predicate AllFieldErrors(errors: seq<ObjectError>)
  {
    forall i :: 0 <= i < |errors| ==> errors[i].FieldError?
  }

  /**
   * `handleValidException`. The cast to FieldError fails on the first error
   * that is not one; otherwise the status is 422, the message is fixed, and
   * the map holds, for each field with an error, the last message given for it.
   */
  method HandleValidException(errors: seq<ObjectError>) returns (r: Result<ResponseEntity, Exception>)
    ensures r.Failure? <==> !AllFieldErrors(errors)
    ensures r.Failure? ==> r.error == ClassCastException
    ensures r.Success? ==>
      && r.value.status == UnprocessableEntity
      && r.value.body.ErrorBody?
      && r.value.body.error.message == ValidationFailed
      && forall f :: LastMessageFor(errors, f)
                       == if f in r.value.body.error.errors then Some(r.value.body.error.errors[f]) else None
  {
    var fieldErrors: map<string, string> := map[];
    var i := 0;
    while i < |errors|
      invariant 0 <= i <= |errors|
      invariant AllFieldErrors(errors[..i])
      invariant forall f :: LastMessageFor(errors[..i], f) == if f in fieldErrors then Some(fieldErrors[f]) else None
    {
      var error := errors[i];
      if !error.FieldError? {
        return Failure(ClassCastException);
      }
      assert errors[..i + 1][..i] == errors[..i];
      fieldErrors := fieldErrors[error.field := error.defaultMessage];
      i := i + 1;
    }
    assert errors[..i] == errors;
    r := Success(ResponseEntity(UnprocessableEntity, ErrorBody(ErrorResource(ValidationFailed, fieldErrors))));
  }

  /** The last error on a field decides its message: nothing after it touches that field. */
  lemma {:induction false} LastWins(errors: seq<ObjectError>, i: nat, field: string)
    requires i < |errors| && IsFieldErrorOn(errors[i], field)
    requires forall j :: i < j < |errors| ==> !IsFieldErrorOn(errors[j], field)
    ensures LastMessageFor(errors, field) == Some(errors[i].defaultMessage)
  {
    if i < |errors| - 1 {
      var init := errors[..|errors| - 1];
      assert init[i] == errors[i];
      forall j | i < j < |init| ensures !IsFieldErrorOn(init[j], field) {
        assert init[j] == errors[j];
      }
      LastWins(init, i, field);
    }
  }

  /** A field has an entry exactly when some field error names it. */
  lemma {:induction false} KeyIffFieldError(errors: seq<ObjectError>, field: string)
    ensures LastMessageFor(errors, field).Some? <==> exists i :: 0 <= i < |errors| && IsFieldErrorOn(errors[i], field)
  {
    if errors != [] {
      var init := errors[..|errors| - 1];
      KeyIffFieldError(init, field);
      if exists i :: 0 <= i < |init| && IsFieldErrorOn(init[i], field) {
        var i :| 0 <= i < |init| && IsFieldErrorOn(init[i], field);
        assert errors[i] == init[i];
      }
      if exists i :: 0 <= i < |errors| && IsFieldErrorOn(errors[i], field) {
        var i :| 0 <= i < |errors| && IsFieldErrorOn(errors[i], field);
        if i < |init| { assert init[i] == errors[i]; }
      }
    }
  }
}

=== FILE: JavaLang.dfy ===
/**
 * The few pieces of java.lang the core relies on, written out exactly:
 * 64-bit `long` arithmetic, truncating division, `String.valueOf(long)`,
 * `Long.valueOf(String)`, `String.startsWith`, `String.substring` and
 * `String.split` with a one-character pattern and limit 0.
 */
module JavaLang {
  import opened Wrappers

  const MinLong: int := -0x8000_0000_0000_0000
  const MaxLong: int := 0x7FFF_FFFF_FFFF_FFFF
  const TwoTo64: int := 0x1_0000_0000_0000_0000

  /** A Java `long` (also the value of a `java.util.Date`, in milliseconds). */
  type Long = x: int | MinLong <= x <= MaxLong

  /** Two's-complement wrap-around of `long` addition and multiplication. */
  function Wrap64(x: int): (r: Long)
    ensures MinLong <= x <= MaxLong ==> r == x
    ensures (x - r) % TwoTo64 == 0
  {
    var r := (x - MinLong) % TwoTo64 + MinLong;
    assert x - r == (x - MinLong) / TwoTo64 * TwoTo64;
    r
  }

  /**
   * Java's `ms / 1000` on a `long`: rounds toward zero, where Dafny's `/` rounds
   * toward negative infinity.
   */
  function DivTrunc1000(a: int): (q: int)
    ensures 0 <= a ==> 0 <= q * 1000 <= a
    ensures a < 0 ==> a <= q * 1000 <= 0
  {
    if a >= 0 then a / 1000 else -((-a) / 1000)
  }

  // ---------------------------------------------------------------------
  // Decimal text

  predicate IsDigit(c: char) { '0' <= c <= '9' }

  predicate AllDigits(s: string) { forall i :: 0 <= i < |s| ==> IsDigit(s[i]) }

  function DigitChar(d: int): (c: char)
    requires 0 <= d < 10
    ensures IsDigit(c) && c as int - '0' as int == d
  {
    (d + '0' as int) as char
  }

  /** The digits of `n` in base 10, most significant first, without leading zeros. */
  function Digits(n: nat): (s: string)
    ensures 0 < |s| && AllDigits(s)
    ensures s[0] != '0' || n == 0
  {
    if n < 10 then [DigitChar(n)] else Digits(n / 10) + [DigitChar(n % 10)]
  }

  /** The number a string of decimal digits denotes. */
  function DigitsValue(s: string): nat
    requires AllDigits(s)
  {
    if s == [] then 0 else DigitsValue(s[..|s| - 1]) * 10 + (s[|s| - 1] as int - '0' as int)
  }

  lemma {:induction false} DigitsRoundTrip(n: nat)
    ensures DigitsValue(Digits(n)) == n
  {
    if n >= 10 {
      DigitsRoundTrip(n / 10);
      var s := Digits(n);
      assert s[..|s| - 1] == Digits(n / 10);
    }
  }

  /** `String.valueOf` of an integer: a minus sign for negatives, then the digits. */
  function IntToString(n: int): (s: string)
  {
    if n < 0 then "-" + Digits(-n) else Digits(n)
  }

  /**
   * The grammar `Long.parseLong` accepts, without the range check: an optional
   * sign, then at least one decimal digit.
   */
  function ParseInt(s: string): (r: Option<int>)
    ensures r.Some? ==> s != "" && (s[0] == '-' || s[0] == '+' || IsDigit(s[0]))
    ensures r.Some? && (s[0] == '-' || s[0] == '+') ==> 1 < |s|
  {
    if s == "" then None
    else
      var signed := s[0] == '-' || s[0] == '+';
      var ds := if signed then s[1..] else s;
      if ds == "" || !AllDigits(ds) then None
      else
        var v: int := DigitsValue(ds);
        if s[0] == '-' then Some(-v) else Some(v)
  }

  /**
   * `Long.valueOf(String)`: `None` is the NumberFormatException it throws,
   * for text outside the grammar and for values outside the `long` range.
   */
  function ParseLong(s: string): (r: Option<Long>)
  {
    match ParseInt(s)
    case Some(v) => if MinLong <= v <= MaxLong then Some(v) else None
    case None => None
  }

  lemma IntRoundTrip(n: int)
    ensures ParseInt(IntToString(n)) == Some(n)
  {
    if n < 0 {
      var ds := Digits(-n);
      DigitsRoundTrip(-n);
      var s := "-" + ds;
      assert s[0] == '-' && s[1..] == ds;
    } else {
      var ds := Digits(n);
      DigitsRoundTrip(n);
      assert ds[0] != '-' && ds[0] != '+' by { assert IsDigit(ds[0]); }
    }
  }

  /** Reading back what `String.valueOf(long)` wrote gives the same `long`. */
  lemma LongRoundTrip(n: Long)
    ensures ParseLong(IntToString(n)) == Some(n)
  {
    IntRoundTrip(n);
  }

  // ---------------------------------------------------------------------
  // Strings

  predicate StartsWith(s: string, prefix: string)
  {
    |prefix| <= |s| && s[..|prefix|] == prefix
  }

  /** Number of occurrences of `d` in `s`. */
  function Count(s: string, d: char): nat
  {
    if s == [] then 0 else Count(s[..|s| - 1], d) + (if s[|s| - 1] == d then 1 else 0)
  }

  /**
   * Every piece of `s` between occurrences of `d`, empty pieces included:
   * what `split` computes before limit 0 drops the trailing empty pieces.
   */
  function SplitAll(s: string, d: char): (parts: seq<string>)
    ensures |parts| == Count(s, d) + 1
  {
    if s == [] then [""]
    else
      var p := SplitAll(s[..|s| - 1], d);
      if s[|s| - 1] == d then p + [""]
      else p[..|p| - 1] + [p[|p| - 1] + [s[|s| - 1]]]
  }

  function DropTrailingEmpty(parts: seq<string>): (r: seq<string>)
    ensures |r| <= |parts|
  {
    if parts != [] && parts[|parts| - 1] == "" then DropTrailingEmpty(parts[..|parts| - 1]) else parts
  }

  /**
   * `s.split(Pattern.quote(d))` with limit 0: when `d` does not occur the result is
   * `[s]` (so `"".split` has one part); otherwise all pieces with the trailing empty
   * ones removed.
   */
  function Split(s: string, d: char): seq<string>
  {
    if d !in s then [s] else DropTrailingEmpty(SplitAll(s, d))
  }

  /** `s` with every trailing occurrence of `d` removed. */
  function TrimTrailing(s: string, d: char): (r: string)
    ensures |r| <= |s| && r == s[..|r|]
    ensures r == [] || r[|r| - 1] != d
  {
    if s != [] && s[|s| - 1] == d then TrimTrailing(s[..|s| - 1], d) else s
  }

  lemma SplitAllAppendDelimiter(s: string, d: char)
    ensures SplitAll(s + [d], d) == SplitAll(s, d) + [""]
  {
    assert (s + [d])[..|s|] == s;
  }

  lemma SplitAllAppendOther(s: string, c: char, d: char)
    requires c != d
    ensures var p := SplitAll(s, d);
      SplitAll(s + [c], d) == p[..|p| - 1] + [p[|p| - 1] + [c]]
  {
    assert (s + [c])[..|s|] == s;
  }

  /** Extending the last piece by `t'` and then by `c` extends it by `t' + [c]`. */
  lemma ExtendLastPiece(p: seq<string>, q: seq<string>, t': string, c: char)
    requires |p| > 0 && q == p[..|p| - 1] + [p[|p| - 1] + t']
    ensures q[..|q| - 1] + [q[|q| - 1] + [c]] == p[..|p| - 1] + [p[|p| - 1] + (t' + [c])]
  {
    assert q[..|q| - 1] == p[..|p| - 1];
    assert q[|q| - 1] + [c] == p[|p| - 1] + (t' + [c]);
  }

  /** One more character other than `d` extends the last piece by that character. */
  lemma SplitAllAppendPlainStep(p: seq<string>, u: string, t': string, c: char, d: char)
    requires c != d && |p| > 0
    requires SplitAll(u, d) == p[..|p| - 1] + [p[|p| - 1] + t']
    ensures SplitAll(u + [c], d) == p[..|p| - 1] + [p[|p| - 1] + (t' + [c])]
  {
    SplitAllAppendOther(u, c, d);
    ExtendLastPiece(p, SplitAll(u, d), t', c);
  }

  /** Text without `d` appended to `s` extends the last piece of `s`. */
  lemma {:induction false} SplitAllAppendPlain(s: string, t: string, d: char)
    requires d !in t
    ensures var p := SplitAll(s, d);
      SplitAll(s + t, d) == p[..|p| - 1] + [p[|p| - 1] + t]
  {
    if t == [] {
      var p := SplitAll(s, d);
      assert s + t == s;
      assert p[|p| - 1] + t == p[|p| - 1];
      assert p[..|p| - 1] + [p[|p| - 1]] == p;
    } else {
      var p := SplitAll(s, d);
      var t', c := t[..|t| - 1], t[|t| - 1];
      var u := s + t';
      assert t == t' + [c];
      assert s + t == u + [c];
      SplitAllAppendPlain(s, t', d);
      SplitAllAppendPlainStep(p, u, t', c, d);
    }
  }

  /** A delimiter and then text without `d` add one piece, that text. */
  lemma SplitAllAppendPiece(s: string, t: string, d: char)
    requires d !in t
    ensures SplitAll(s + [d] + t, d) == SplitAll(s, d) + [t]
  {
    SplitAllAppendDelimiter(s, d);
    var p := SplitAll(s + [d], d);
    assert p == SplitAll(s, d) + [""];
    SplitAllAppendPlain(s + [d], t, d);
    assert p[..|p| - 1] == SplitAll(s, d);
    assert p[|p| - 1] + t == t;
  }

  lemma SplitAllThree(a: string, b: string, c: string, d: char)
    requires d !in a && d !in b && d !in c
    ensures SplitAll(a + [d] + b + [d] + c, d) == [a, b, c]
  {
    SplitAllAppendPlain([], a, d);
    assert [] + a == a;
    assert SplitAll(a, d) == [a];
    SplitAllAppendPiece(a, b, d);
    assert SplitAll(a + [d] + b, d) == [a, b];
    SplitAllAppendPiece(a + [d] + b, c, d);
  }

  /** Text that does not end in `d` keeps its last piece, which is not empty. */
  lemma SplitAllEndingOther(s: string, d: char)
    requires s != [] && s[|s| - 1] != d
    ensures DropTrailingEmpty(SplitAll(s, d)) == SplitAll(s, d)
    ensures TrimTrailing(s, d) == s
  {
    var p := SplitAll(s[..|s| - 1], d);
    var q := SplitAll(s, d);
    assert q[|q| - 1] == p[|p| - 1] + [s[|s| - 1]];
    assert q[|q| - 1] != "";
  }

  /** A trailing `d` adds one empty piece, which limit 0 drops again. */
  lemma SplitAllEndingDelimiter(s: string, d: char)
    ensures DropTrailingEmpty(SplitAll(s + [d], d)) == DropTrailingEmpty(SplitAll(s, d))
    ensures TrimTrailing(s + [d], d) == TrimTrailing(s, d)
  {
    SplitAllAppendDelimiter(s, d);
    var q := SplitAll(s + [d], d);
    assert q[..|q| - 1] == SplitAll(s, d);
    assert (s + [d])[..|s|] == s;
  }

  lemma {:induction false} SplitAllOfTrailing(s: string, d: char)
    ensures var u := TrimTrailing(s, d);
      u != [] ==> DropTrailingEmpty(SplitAll(s, d)) == SplitAll(u, d)
    ensures TrimTrailing(s, d) == [] ==> DropTrailingEmpty(SplitAll(s, d)) == []
  {
    if s == [] {
      assert SplitAll(s, d) == [""];
      assert DropTrailingEmpty([""]) == DropTrailingEmpty([]);
    } else if s[|s| - 1] == d {
      var s' := s[..|s| - 1];
      SplitAllOfTrailing(s', d);
      assert s == s' + [d];
      SplitAllEndingDelimiter(s', d);
    } else {
      SplitAllEndingOther(s, d);
    }
  }

  lemma {:induction false} CountTrimTrailing(s: string, d: char)
    ensures d in s && TrimTrailing(s, d) == [] ==> Count(s, d) > 0
    ensures d !in s ==> Count(s, d) == 0 && TrimTrailing(s, d) == s
  {
    if s != [] {
      CountTrimTrailing(s[..|s| - 1], d);
      assert s == s[..|s| - 1] + [s[|s| - 1]];
      assert d in s ==> d in s[..|s| - 1] || s[|s| - 1] == d;
    }
  }

  /**
   * How many parts `split` yields: one when `d` is absent, none when the text is
   * made of `d` only, otherwise one more than the occurrences of `d` left after
   * the trailing ones are trimmed.
   */
  lemma SplitLength(s: string, d: char)
    ensures d !in s ==> |Split(s, d)| == 1
    ensures d in s && TrimTrailing(s, d) == [] ==> |Split(s, d)| == 0
    ensures d in s && TrimTrailing(s, d) != [] ==> |Split(s, d)| == Count(TrimTrailing(s, d), d) + 1
  {
    SplitAllOfTrailing(s, d);
  }
}

=== FILE: Jws.dfy ===
/**
 * A stand-in for the jjwt library: JWS Compact Serialization (section 7.1 of
 * RFC 7515) of a claim set signed with HS512 (section 3.2 of RFC 7518).
 *
 * A token is `header "." payload "." signature`. The header is the fixed
 * `{"alg":"HS512"}` segment. The payload is a dot-free text encoding of the
 * claims (not base64url JSON). The signature is `Mac(key, header "." payload)`,
 * a deterministic, dot-free function that is injective in the key. It is NOT
 * HMAC-SHA512 and has no secrecy; what the model proves rests only on it being
 * a function of exactly the key and the signed text.
 *
 * What jjwt does and this keeps: `iat` and `exp` are written as whole seconds
 * (Java `ms / 1000`) and read back as `seconds * 1000` milliseconds; parsing
 * rejects a wrong segment count, an unreadable header or payload and a missing
 * signature as malformed, then a signature mismatch, then a token whose `exp`
 * is strictly before now.
 */
module Jws {
  import opened Wrappers
  import opened JavaLang

  /**
   * The claims the core reads and writes (section 4.1 of RFC 7519 for sub, iss,
   * iat, exp; "email" is a private claim). A claim absent from the token is
   * `None`. `iat` and `exp` are `java.util.Date` values in milliseconds.
   */
  datatype Claims = Claims(
    sub: Option<string>,
    email: Option<string>,
    iss: Option<string>,
    iat: Option<Long>,
    exp: Option<Long>)

  /** An HMAC-SHA key; `material` stands for its bytes. */
  datatype Key = HmacKey(material: string)

  /**
   * `Keys.hmacShaKeyFor(Base64.getEncoder().encode(secret.getBytes()))`. Both
   * byte conversions are injective, so the key is modelled by the secret itself.
   */
  function KeyOf(secret: string): Key
  {
    HmacKey(secret)
  }

  /**
   * What `parseClaimsJws` throws: SignatureException, ExpiredJwtException, and
   * the rest (MalformedJwtException, UnsupportedJwtException for an unsigned
   * token, IllegalArgumentException for an empty string) as `Malformed`.
   */
  datatype JwtError = BadSignature | Expired | Malformed

  /** base64url of `{"alg":"HS512"}`. */
  const Header: string := "eyJhbGciOiJIUzUxMiJ9"

  // ---------------------------------------------------------------------
  // Claims as a list of integers

  predicate IsScalar(x: int) { 0 <= x < 0xD800 || 0xE000 <= x < 0x11_0000 }

  function CharCodes(s: string): (xs: seq<int>)
    ensures |xs| == |s|
    ensures forall i :: 0 <= i < |s| ==> xs[i] == s[i] as int && IsScalar(xs[i])
  {
    seq(|s|, i requires 0 <= i < |s| => s[i] as int)
  }

  function EncodeText(v: Option<string>): seq<int>
  {
    match v
    case None => [0]
    case Some(s) => [1, |s|] + CharCodes(s)
  }

  function EncodeNumber(v: Option<Long>): seq<int>
  {
    match v
    case None => [0]
    case Some(n) => [1, n]
  }

  /** How jjwt writes a Date claim: `date.getTime() / 1000`. */
  function SecondsOf(ms: Long): Long
  {
    DivTrunc1000(ms)
  }

  /** How jjwt reads a Date claim back: `new Date(seconds * 1000)`. */
  function MillisOf(seconds: Long): Long
  {
    Wrap64(seconds * 1000)
  }

  function SecondsOpt(v: Option<Long>): Option<Long>
  {
    match v
    case None => None
    case Some(ms) => Some(SecondsOf(ms))
  }

  function MillisOpt(v: Option<Long>): Option<Long>
  {
    match v
    case None => None
    case Some(s) => Some(MillisOf(s))
  }

  function EncodeClaims(c: Claims): seq<int>
  {
    EncodeText(c.sub) + (EncodeText(c.email) + (EncodeText(c.iss)
      + (EncodeNumber(SecondsOpt(c.iat)) + EncodeNumber(SecondsOpt(c.exp)))))
  }

  function DecodeText(xs: seq<int>): (r: Option<(Option<string>, seq<int>)>)
    ensures r.Some? ==> |r.value.1| < |xs|
  {
    if |xs| == 0 then None
    else if xs[0] == 0 then Some((None, xs[1..]))
    else if xs[0] == 1 && 2 <= |xs| && 0 <= xs[1] <= |xs| - 2
            && (forall i :: 2 <= i < 2 + xs[1] ==> IsScalar(xs[i])) then
      var n := xs[1];
      Some((Some(seq(n, i requires 0 <= i < n => xs[2 + i] as char)), xs[2 + n..]))
    else None
  }

  function DecodeNumber(xs: seq<int>): (r: Option<(Option<Long>, seq<int>)>)
  {
    if |xs| == 0 then None
    else if xs[0] == 0 then Some((None, xs[1..]))
    else if xs[0] == 1 && 2 <= |xs| && MinLong <= xs[1] <= MaxLong then Some((Some(xs[1] as Long), xs[2..]))
    else None
  }

  function DecodeClaims(xs: seq<int>): Option<Claims>
  {
    match DecodeText(xs)
    case None => None
    case Some((sub, xs1)) =>
      match DecodeText(xs1)
      case None => None
      case Some((email, xs2)) =>
        match DecodeText(xs2)
        case None => None
        case Some((iss, xs3)) => DecodeDates(Claims(sub, email, iss, None, None), xs3)
  }

  /** The two Date claims that close the payload, read back as milliseconds. */
  function DecodeDates(c: Claims, xs: seq<int>): Option<Claims>
  {
    match DecodeNumber(xs)
    case None => None
    case Some((iat, xs1)) =>
      match DecodeNumber(xs1)
      case None => None
      case Some((exp, xs2)) =>
        if xs2 != [] then None
        else Some(c.(iat := MillisOpt(iat), exp := MillisOpt(exp)))
  }

  /** Where the pieces of an encoded text sit. */
  lemma EncodedTextLayout(s: string, rest: seq<int>)
    ensures var xs := [1, |s|] + CharCodes(s) + rest;
      |xs| == 2 + |s| + |rest| && xs[0] == 1 && xs[1] == |s| && xs[2 + |s|..] == rest
      && forall i :: 0 <= i < |s| ==> xs[2 + i] == s[i] as int
  {
    var cs := CharCodes(s);
    var xs := [1, |s|] + cs + rest;
    forall i | 0 <= i < |s| ensures xs[2 + i] == s[i] as int {
      assert xs[2 + i] == cs[i];
    }
    assert xs[2 + |s|..] == rest;
  }

  lemma DecodeTextPresent(xs: seq<int>, s: string, rest: seq<int>)
    requires |xs| == 2 + |s| + |rest| && xs[0] == 1 && xs[1] == |s| && xs[2 + |s|..] == rest
    requires forall i :: 0 <= i < |s| ==> xs[2 + i] == s[i] as int
    ensures DecodeText(xs) == Some((Some(s), rest))
  {
    forall i | 2 <= i < 2 + |s| ensures IsScalar(xs[i]) {
      assert xs[2 + (i - 2)] == s[i - 2] as int;
    }
    var decoded := seq(|s|, i requires 0 <= i < |s| => xs[2 + i] as char);
    forall i | 0 <= i < |s| ensures decoded[i] == s[i] {
      assert xs[2 + i] == s[i] as int;
    }
    assert decoded == s;
  }

  lemma DecodeTextRoundTrip(v: Option<string>, rest: seq<int>)
    ensures DecodeText(EncodeText(v) + rest) == Some((v, rest))
  {
    var xs := EncodeText(v) + rest;
    if v.Some? {
      EncodedTextLayout(v.value, rest);
      DecodeTextPresent(xs, v.value, rest);
    } else {
      assert xs[1..] == rest;
    }
  }

  lemma DecodeNumberRoundTrip(v: Option<Long>, rest: seq<int>)
    ensures DecodeNumber(EncodeNumber(v) + rest) == Some((v, rest))
  {
    var xs := EncodeNumber(v) + rest;
    if v.Some? {
      assert xs[2..] == rest;
    } else {
      assert xs[1..] == rest;
    }
  }

  /** A Date claim after the trip through whole seconds. */
  function WholeSeconds(v: Option<Long>): (r: Option<Long>)
    ensures r.Some? <==> v.Some?
    ensures r.Some? ==> r.value == SecondsOf(v.value) * 1000
    ensures r.Some? && 0 <= v.value ==> v.value - 999 <= r.value <= v.value
  {
    MillisOpt(SecondsOpt(v))
  }

  /** The claims as a parser sees them after `c` was signed: dates cut to whole seconds. */
  function Serialized(c: Claims): Claims
  {
    c.(iat := WholeSeconds(c.iat), exp := WholeSeconds(c.exp))
  }

  lemma DecodeDatesRoundTrip(c: Claims, iat: Option<Long>, exp: Option<Long>)
    ensures DecodeDates(c, EncodeNumber(SecondsOpt(iat)) + EncodeNumber(SecondsOpt(exp)))
      == Some(c.(iat := WholeSeconds(iat), exp := WholeSeconds(exp)))
  {
    var e5 := EncodeNumber(SecondsOpt(exp));
    DecodeNumberRoundTrip(SecondsOpt(iat), e5);
    DecodeNumberRoundTrip(SecondsOpt(exp), []);
    assert e5 + [] == e5;
  }

  lemma DecodeClaimsRoundTrip(c: Claims)
    ensures DecodeClaims(EncodeClaims(c)) == Some(Serialized(c))
  {
    var r3 := EncodeNumber(SecondsOpt(c.iat)) + EncodeNumber(SecondsOpt(c.exp));
    var r2 := EncodeText(c.iss) + r3;
    var r1 := EncodeText(c.email) + r2;
    DecodeTextRoundTrip(c.sub, r1);
    DecodeTextRoundTrip(c.email, r2);
    DecodeTextRoundTrip(c.iss, r3);
    var partial := Claims(c.sub, c.email, c.iss, None, None);
    DecodeDatesRoundTrip(partial, c.iat, c.exp);
    assert partial.(iat := WholeSeconds(c.iat), exp := WholeSeconds(c.exp)) == Serialized(c);
  }

  // ---------------------------------------------------------------------
  // Integers as dot-free text: each integer in decimal, closed by ';'

  function Serialize(xs: seq<int>): (t: string)
    ensures '.' !in t
    ensures xs != [] ==> t != ""
  {
    if xs == [] then "" else IntToString(xs[0]) + ";" + Serialize(xs[1..])
  }

  /** The text before the first `c` and the text after it. */
  function Cut(t: string, c: char): (r: Option<(string, string)>)
    ensures r.Some? ==> |r.value.1| < |t|
  {
    if t == "" then None
    else if t[0] == c then Some(("", t[1..]))
    else
      match Cut(t[1..], c)
      case None => None
      case Some((head, rest)) => Some(([t[0]] + head, rest))
  }

  function Deserialize(t: string): Option<seq<int>>
    decreases |t|
  {
    if t == "" then Some([])
    else
      match Cut(t, ';')
      case None => None
      case Some((head, rest)) =>
        match ParseInt(head)
        case None => None
        case Some(x) =>
          match Deserialize(rest)
          case None => None
          case Some(ys) => Some([x] + ys)
  }

  lemma {:induction false} CutAt(a: string, c: char, rest: string)
    requires c !in a
    ensures Cut(a + [c] + rest, c) == Some((a, rest))
  {
    if a != [] {
      CutAt(a[1..], c, rest);
      assert (a + [c] + rest)[1..] == a[1..] + [c] + rest;
      assert [a[0]] + a[1..] == a;
    } else {
      assert (a + [c] + rest)[1..] == rest;
    }
  }

  lemma IntToStringHasNo(n: int, c: char)
    requires c == ';' || c == '.'
    ensures c !in IntToString(n)
  {
    var s := IntToString(n);
    if n < 0 {
      assert forall i :: 1 <= i < |s| ==> s[i] == Digits(-n)[i - 1];
    }
  }

  lemma {:induction false} SerializeRoundTrip(xs: seq<int>)
    ensures Deserialize(Serialize(xs)) == Some(xs)
  {
    if xs != [] {
      var t := Serialize(xs);
      IntToStringHasNo(xs[0], ';');
      CutAt(IntToString(xs[0]), ';', Serialize(xs[1..]));
      IntRoundTrip(xs[0]);
      SerializeRoundTrip(xs[1..]);
      assert [xs[0]] + xs[1..] == xs;
    }
  }

  lemma SerializeInjective(xs: seq<int>, ys: seq<int>)
    requires Serialize(xs) == Serialize(ys)
    ensures xs == ys
  {
    SerializeRoundTrip(xs);
    SerializeRoundTrip(ys);
  }

  // ---------------------------------------------------------------------
  // Signing and parsing

  /** Stand-in for HMAC-SHA512 over the signing input, written as a segment. */
  function Mac(key: Key, input: string): (sig: string)
    ensures '.' !in sig && sig != ""
  {
    Serialize(CharCodes(key.material) + [-1] + CharCodes(input))
  }

  function Payload(c: Claims): (t: string)
    ensures '.' !in t
  {
    Serialize(EncodeClaims(c))
  }

  /** `Jwts.builder()...signWith(key, HS512).compact()`. */
  function Sign(key: Key, c: Claims): string
  {
    Header + "." + Payload(c) + "." + Mac(key, Header + "." + Payload(c))
  }

  /**
   * `Jwts.parserBuilder().setSigningKey(key).build().parseClaimsJws(token).getBody()`
   * at time `now`. Only a token carrying the key's signature over its first two
   * segments, and whose `exp` (if any) is not before `now`, is accepted.
   */
  function Parse(key: Key, token: string, now: Long): (r: Result<Claims, JwtError>)
    ensures r.Success? ==> var parts := SplitAll(token, '.');
      |parts| == 3 && parts[2] == Mac(key, parts[0] + "." + parts[1])
      && (r.value.exp.None? || now <= r.value.exp.value)
  {
    var parts := SplitAll(token, '.');
    if |parts| != 3 || parts[0] != Header then Failure(Malformed)
    else
      match Deserialize(parts[1])
      case None => Failure(Malformed)
      case Some(xs) =>
        match DecodeClaims(xs)
        case None => Failure(Malformed)
        case Some(c) =>
          if parts[2] == "" then Failure(Malformed)
          else if parts[2] != Mac(key, parts[0] + "." + parts[1]) then Failure(BadSignature)
          else if c.exp.Some? && now > c.exp.value then Failure(Expired)
          else Success(c)
  }

  lemma HeaderWithoutDot()
    ensures '.' !in Header
  {
  }

  lemma SignedParts(key: Key, c: Claims)
    ensures SplitAll(Sign(key, c), '.') == [Header, Payload(c), Mac(key, Header + "." + Payload(c))]
  {
    var p := Payload(c);
    var m := Mac(key, Header + "." + p);
    assert Sign(key, c) == Header + "." + p + "." + m;
    HeaderWithoutDot();
    SplitAllThree(Header, p, m, '.');
  }

  /**
   * Parsing what was signed with the same key gives back the claims (dates cut
   * to whole seconds), unless `now` is strictly after the expiry.
   */
  lemma SignParseRoundTrip(key: Key, c: Claims, now: Long)
    ensures var c' := Serialized(c);
      Parse(key, Sign(key, c), now)
        == if c'.exp.Some? && now > c'.exp.value then Failure(Expired) else Success(c')
  {
    SignedParts(key, c);
    SerializeRoundTrip(EncodeClaims(c));
    DecodeClaimsRoundTrip(c);
  }

  /** Equal sequences with the same tail have equal heads. */
  lemma AppendCancel(a: seq<int>, b: seq<int>, tail: seq<int>)
    requires a + tail == b + tail
    ensures a == b
  {
    assert |a| == |b|;
    assert a == (a + tail)[..|a|];
    assert b == (b + tail)[..|b|];
  }

  lemma CharCodesInjective(s: string, t: string)
    requires CharCodes(s) == CharCodes(t)
    ensures s == t
  {
    assert |s| == |t|;
    forall i | 0 <= i < |s| ensures s[i] == t[i] {
      assert CharCodes(s)[i] == CharCodes(t)[i];
    }
  }

  lemma MacInput(key: Key, input: string)
    ensures Mac(key, input) == Serialize(CharCodes(key.material) + ([-1] + CharCodes(input)))
  {
    var a, c := CharCodes(key.material), CharCodes(input);
    assert a + [-1] + c == a + ([-1] + c);
  }

  lemma MacKeyInjective(k1: Key, k2: Key, input: string)
    requires Mac(k1, input) == Mac(k2, input)
    ensures k1 == k2
  {
    var tail := [-1] + CharCodes(input);
    MacInput(k1, input);
    MacInput(k2, input);
    SerializeInjective(CharCodes(k1.material) + tail, CharCodes(k2.material) + tail);
    AppendCancel(CharCodes(k1.material), CharCodes(k2.material), tail);
    CharCodesInjective(k1.material, k2.material);
  }

  /** A token signed with one key is refused by a parser holding another. */
  lemma OtherKeyRejected(signer: Key, verifier: Key, c: Claims, now: Long)
    requires signer != verifier
    ensures Parse(verifier, Sign(signer, c), now) == Failure(BadSignature)
  {
    SignedParts(signer, c);
    SerializeRoundTrip(EncodeClaims(c));
    DecodeClaimsRoundTrip(c);
    if Mac(signer, Header + "." + Payload(c)) == Mac(verifier, Header + "." + Payload(c)) {
      MacKeyInjective(signer, verifier, Header + "." + Payload(c));
    }
  }

  /**
   * Replacing the signature segment of a signed token by any other non-empty
   * segment makes the parser report a bad signature, whatever the time.
   */
  lemma TamperedSignatureRejected(key: Key, c: Claims, sig: string, now: Long)
    requires sig != "" && '.' !in sig && sig != Mac(key, Header + "." + Payload(c))
    ensures Parse(key, Header + "." + Payload(c) + "." + sig, now) == Failure(BadSignature)
  {
    SplitAllThree(Header, Payload(c), sig, '.');
    SerializeRoundTrip(EncodeClaims(c));
    DecodeClaimsRoundTrip(c);
  }
}

=== FILE: JwtAuthFilter.dfy ===
/**
 * `JwtAuthFilter.doFilterInternal`, run once per request: without a bearer
 * header it writes a 401 JSON body and stops; otherwise it reads the subject
 * of the token, and when the security context is still empty it loads the
 * user and stores the authentication; then it passes the request on.
 */
module JwtAuthFilter {
  import opened Wrappers
  import opened JavaLang
  import opened Failures
  import opened Jws
  import opened Resources
  import opened Users
  import opened CustomUserDetailsService
  import opened JwtService
  import opened UserService
  import opened Blacklist
  import opened BlackListService

  const BearerPrefix: string := "Bearer "
  const ErrorTitle: string := "認証できませんでした。"
  const ErrorMessage: string := "トークンは見つかりません。"
  const ApplicationJson: string := "application/json"

  /** The parts of the servlet request the filter reads. */
  datatype Request = Request(authorization: Option<string>, requestUri: string, remoteAddress: string)

  /**
   * The `UsernamePasswordAuthenticationToken` the filter stores: the principal,
   * its authorities, and the request details (the remote address). The
   * credentials are always null and are not kept.
   */
  datatype Authentication = Authentication(principal: UserDetails, authorities: seq<string>, remoteAddress: string)

  /** The values of the error map written as JSON. */
  datatype JsonValue = JNumber(n: int) | JString(s: string)

  /** The security context of the current request. */
  class SecurityContext {
    var authentication: Option<Authentication>

    constructor ()
      ensures authentication == None
    {
      authentication := None;
    }
  }

  /** The servlet response: status, content type and the map written as JSON body. */
  class HttpResponse {
    var status: int
    var contentType: string
    var body: map<string, JsonValue>

    constructor ()
      ensures status == Ok && contentType == "" && body == map[]
    {
      status := Ok;
      contentType := "";
      body := map[];
    }
  }

  /** The rest of the filter chain; only the number of times it is entered is observed. */
  class FilterChain {
    var invocations: nat

    constructor ()
      ensures invocations == 0
    {
      invocations := 0;
    }

    method DoFilter()
      modifies this
      ensures invocations == old(invocations) + 1
    {
      invocations := invocations + 1;
    }
  }

  /** How a request leaves the filter. */
  datatype Decision =
    | Rejected                                      // 401 body written, chain not entered
    | Escaped(error: Exception)                     // exception thrown out of the filter
    | Continued(authentication: Option<Authentication>)  // chain entered with this context

  /** What the filter does with the token `jwt` taken from a bearer header. */
  function DecideToken(svc: JwtService, users: seq<User>, jwt: string, remoteAddress: string,
                       current: Option<Authentication>, now: Long): (d: Decision)
    ensures !d.Rejected?
    ensures svc.GetUserIdFromJwt(jwt, now).Failure? ==> d == Escaped(svc.GetUserIdFromJwt(jwt, now).error)
    ensures svc.GetUserIdFromJwt(jwt, now) == Success(None) ==> d == Continued(current)
    ensures current.None? && svc.GetUserIdFromJwt(jwt, now).Success? && svc.GetUserIdFromJwt(jwt, now).value.Some? ==>
      match LoadUserByUsername(users, svc.GetUserIdFromJwt(jwt, now).value.value)
      case Failure(e) => d == Escaped(e)
      case Success(p) => d == Continued(Some(Authentication(p, [], remoteAddress)))
    ensures current.Some? && svc.GetUserIdFromJwt(jwt, now).Success? ==> d == Continued(current)
    ensures d.Continued? && d.authentication != current ==>
      && current.None? && d.authentication.Some?
      && svc.GetUserIdFromJwt(jwt, now).Success? && svc.GetUserIdFromJwt(jwt, now).value.Some?
      && Success(d.authentication.value.principal) == LoadUserByUsername(users, svc.GetUserIdFromJwt(jwt, now).value.value)
      && d.authentication.value.authorities == [] && d.authentication.value.remoteAddress == remoteAddress
  {
    match svc.GetUserIdFromJwt(jwt, now)
    case Failure(e) => Escaped(e)
    case Success(None) => Continued(current)
    case Success(Some(userId)) =>
      if current.Some? then Continued(current)
      else
        match LoadUserByUsername(users, userId)
        case Failure(e) => Escaped(e)
        case Success(details) => Continued(Some(Authentication(details, details.authorities, remoteAddress)))
  }

  /** What the filter does with `request` when the context holds `current`. */
  function Decide(svc: JwtService, users: seq<User>, request: Request, current: Option<Authentication>, now: Long)
    : (d: Decision)
    ensures d.Rejected? <==>
      request.authorization.None? || !StartsWith(request.authorization.value, BearerPrefix)
  {
    match request.authorization
    case None => Rejected
    case Some(header) =>
      if !StartsWith(header, BearerPrefix) then Rejected
      else DecideToken(svc, users, header[|BearerPrefix|..], request.remoteAddress, current, now)
  }

  /**
   * `sendErrorResponse`: sets the status and the JSON content type and writes
   * a map with exactly the keys timestamp, status, error, message and path.
   * `clock` is the value `System.currentTimeMillis()` returns.
   */
  method SendErrorResponse(response: HttpResponse, request: Request, statusCode: int,
                           error: string, message: string, clock: Long)
    modifies response
    ensures response.status == statusCode && response.contentType == ApplicationJson
    ensures response.body.Keys == {"timestamp", "status", "error", "message", "path"}
    ensures response.body["timestamp"] == JNumber(clock)
    ensures response.body["status"] == JNumber(statusCode)
    ensures response.body["error"] == JString(error)
    ensures response.body["message"] == JString(message)
    ensures response.body["path"] == JString(request.requestUri)
  {
    response.status := statusCode;
    response.contentType := ApplicationJson;
    var errorResponse: map<string, JsonValue> := map[];
    errorResponse := errorResponse["timestamp" := JNumber(clock)];
    errorResponse := errorResponse["status" := JNumber(statusCode)];
    errorResponse := errorResponse["error" := JString(error)];
    errorResponse := errorResponse["message" := JString(message)];
    errorResponse := errorResponse["path" := JString(request.requestUri)];
    response.body := errorResponse;
  }

  /**
   * `doFilterInternal`. `thrown` is the exception that leaves the filter, if
   * any. A rejected request gets the 401 body and neither the chain nor the
   * context is touched; an escaping exception changes nothing; otherwise the
   * context holds the decided authentication and the chain is entered once.
   */
  method DoFilterInternal(svc: JwtService, users: seq<User>, request: Request, response: HttpResponse,
                          chain: FilterChain, context: SecurityContext, now: Long, clock: Long)
    returns (thrown: Option<Exception>)
    modifies response, chain, context
    ensures var d := Decide(svc, users, request, old(context.authentication), now);
      && (d.Rejected? ==>
            && thrown == None && unchanged(chain, context)
            && response.status == Unauthorized && response.contentType == ApplicationJson
            && response.body == map["timestamp" := JNumber(clock), "status" := JNumber(Unauthorized),
                                    "error" := JString(ErrorTitle), "message" := JString(ErrorMessage),
                                    "path" := JString(request.requestUri)])
      && (d.Escaped? ==> thrown == Some(d.error) && unchanged(response, chain, context))
      && (d.Continued? ==>
            && thrown == None && unchanged(response)
            && context.authentication == d.authentication
            && chain.invocations == old(chain.invocations) + 1)
  {
    var authHeader := request.authorization;
    if authHeader.None? || !StartsWith(authHeader.value, BearerPrefix) {
      SendErrorResponse(response, request, Unauthorized, ErrorTitle, ErrorMessage, clock);
      return None;
    }
    var jwt := authHeader.value[7..];
    var userId := svc.GetUserIdFromJwt(jwt, now);
    if userId.Failure? {
      return Some(userId.error);
    }
    if userId.value.Some? && context.authentication.None? {
      var userDetails := LoadUserByUsername(users, userId.value.value);
      if userDetails.Failure? {
        return Some(userDetails.error);
      }
      var authToken := Authentication(userDetails.value, userDetails.value.authorities, request.remoteAddress);
      context.authentication := Some(authToken);
    }
    chain.DoFilter();
    thrown := None;
  }

  // -------------------------------------------------------------------
  // Properties

  /**
   * No path is exempt: without an "Bearer " header every request, the login
   * route included, is rejected, whatever the context holds.
   */
  lemma NoBearerRejected(svc: JwtService, users: seq<User>, request: Request, current: Option<Authentication>, now: Long)
    requires request.authorization.None? || !StartsWith(request.authorization.value, BearerPrefix)
    ensures Decide(svc, users, request, current, now) == Rejected
  {
  }

  /** The token examined is the header with its first seven characters, "Bearer ", removed. */
  lemma ExaminedToken(svc: JwtService, users: seq<User>, jwt: string, uri: string, remoteAddress: string,
                      current: Option<Authentication>, now: Long)
    ensures Decide(svc, users, Request(Some(BearerPrefix + jwt), uri, remoteAddress), current, now)
      == DecideToken(svc, users, jwt, remoteAddress, current, now)
  {
    var header := BearerPrefix + jwt;
    assert header[..|BearerPrefix|] == BearerPrefix;
    assert header[|BearerPrefix|..] == jwt;
  }

  /**
   * An authentication already in the context is never replaced: the request is
   * rejected, its token's parse error escapes, or the chain is entered with the
   * context as it was.
   */
  lemma ExistingAuthenticationKept(svc: JwtService, users: seq<User>, request: Request,
                                   current: Option<Authentication>, now: Long)
    requires current.Some?
    ensures var d := Decide(svc, users, request, current, now);
      || d.Rejected?
      || d == Continued(current)
      || (&& request.authorization.Some? && |request.authorization.value| >= |BearerPrefix|
          && svc.GetUserIdFromJwt(request.authorization.value[|BearerPrefix|..], now).Failure?
          && d == Escaped(svc.GetUserIdFromJwt(request.authorization.value[|BearerPrefix|..], now).error))
  {
  }

  /**
   * A bearer request whose token parses, arriving with an authentication in the
   * context, enters the chain with that authentication untouched.
   */
  lemma ParsedTokenKeepsAuthentication(svc: JwtService, users: seq<User>, jwt: string, uri: string,
                                       remoteAddress: string, current: Option<Authentication>, now: Long)
    requires current.Some? && svc.GetUserIdFromJwt(jwt, now).Success?
    ensures Decide(svc, users, Request(Some(BearerPrefix + jwt), uri, remoteAddress), current, now)
      == Continued(current)
  {
    ExaminedToken(svc, users, jwt, uri, remoteAddress, current, now);
  }

  /**
   * Every request that reaches the rest of the chain carries a header of at
   * least seven characters, "Bearer " and then a token the parser accepts.
   */
  lemma ContinuedRequestParses(svc: JwtService, users: seq<User>, request: Request,
                               current: Option<Authentication>, now: Long)
    requires Decide(svc, users, request, current, now).Continued?
    ensures request.authorization.Some? && StartsWith(request.authorization.value, BearerPrefix)
    ensures |request.authorization.value| >= 7
    ensures svc.GetUserIdFromJwt(request.authorization.value[7..], now).Success?
    ensures Parse(svc.key, request.authorization.value[7..], now).Success?
  {
  }

  /** A token the parser refuses makes the filter throw: no 401 body and no chain. */
  lemma ParseFailureEscapes(svc: JwtService, users: seq<User>, jwt: string, uri: string, remoteAddress: string,
                            current: Option<Authentication>, now: Long)
    requires svc.GetUserIdFromJwt(jwt, now).Failure?
    ensures Decide(svc, users, Request(Some(BearerPrefix + jwt), uri, remoteAddress), current, now)
      == Escaped(svc.GetUserIdFromJwt(jwt, now).error)
  {
    ExaminedToken(svc, users, jwt, uri, remoteAddress, current, now);
  }

  /** A token issued for a row, presented before it expires, authenticates that row. */
  lemma IssuedTokenAuthenticates(svc: JwtService, users: seq<User>, i: nat, issuedAt: Long, t: Long,
                                 uri: string, remoteAddress: string)
    requires IdsUnique(users) && i < |users| && users[i].email != ""
    requires t <= svc.ExpiryMillis(issuedAt)
    ensures var token := svc.GenerateToken(users[i].id, users[i].email, issuedAt);
      Decide(svc, users, Request(Some(BearerPrefix + token), uri, remoteAddress), None, t)
        == Continued(Some(Authentication(UserDetails(users[i].email, users[i].password, []), [], remoteAddress)))
  {
    var token := svc.GenerateToken(users[i].id, users[i].email, issuedAt);
    ExaminedToken(svc, users, token, uri, remoteAddress, None, t);
    svc.SubjectAndEmailRoundTrip(users[i].id, users[i].email, issuedAt, t);
    SubjectOfRowLoadsRow(users, i);
  }

  /**
   * The token of a successful login, presented as a bearer header before it
   * expires on a request with an empty context, authenticates the user found
   * by that email: the principal is named by the email and has no authorities.
   */
  lemma LoginTokenAuthenticates(svc: JwtService, users: seq<User>, matches: PasswordMatcher,
                                login: LoginRequest, issuedAt: Long, t: Long, uri: string, remoteAddress: string)
    requires IdsUnique(users) && login.email != ""
    requires Authenticate(svc, users, matches, login, issuedAt).LoginBody?
    requires t <= svc.ExpiryMillis(issuedAt)
    ensures var user := FindByEmail(users, login.email).value;
      var token := Authenticate(svc, users, matches, login, issuedAt).login.token;
      Decide(svc, users, Request(Some(BearerPrefix + token), uri, remoteAddress), None, t)
        == Continued(Some(Authentication(UserDetails(login.email, user.password, []), [], remoteAddress)))
  {
    var user := FindByEmail(users, login.email).value;
    var i :| 0 <= i < |users| && users[i] == user && users[i].email == login.email;
    IssuedTokenAuthenticates(svc, users, i, issuedAt, t, uri, remoteAddress);
  }

  /**
   * The blacklist is never consulted: after logout has stored a login token in
   * the blacklist, the same token still authenticates its user until it expires.
   */
  lemma RevokedTokenStillAuthenticates(svc: JwtService, users: seq<User>, matches: PasswordMatcher,
                                       login: LoginRequest, issuedAt: Long, t: Long,
                                       rows: seq<BlacklistedToken>, nextId: nat, logoutAt: Long,
                                       uri: string, remoteAddress: string)
    requires IdsUnique(users) && login.email != ""
    requires Authenticate(svc, users, matches, login, issuedAt).LoginBody?
    requires logoutAt <= svc.ExpiryMillis(issuedAt) && t <= svc.ExpiryMillis(issuedAt)
    ensures var user := FindByEmail(users, login.email).value;
      var token := Authenticate(svc, users, matches, login, issuedAt).login.token;
      && Stored(Register(svc, rows, nextId, token, logoutAt).rows, token)
      && Decide(svc, users, Request(Some(BearerPrefix + token), uri, remoteAddress), None, t)
           == Continued(Some(Authentication(UserDetails(login.email, user.password, []), [], remoteAddress)))
  {
    var user := FindByEmail(users, login.email).value;
    var token := Authenticate(svc, users, matches, login, issuedAt).login.token;
    assert token == svc.GenerateToken(user.id, user.email, issuedAt);
    IssuedTokenStored(svc, rows, nextId, user.id, user.email, issuedAt, logoutAt);
    LoginTokenAuthenticates(svc, users, matches, login, issuedAt, t, uri, remoteAddress);
  }
}

=== FILE: JwtService.dfy ===
/**
 * `JwtService`: assembling and signing a claim set, reading claims back, and
 * the individual token checks (format, signature, expiry, issuer, blacklist).
 * Every parse happens at an explicit time `now` (the clock jjwt reads).
 */
module JwtService {
  import opened Wrappers
  import opened JavaLang
  import opened Jws
  import opened Failures
  import opened Blacklist

  /** Messages of the NullPointerException thrown when a token carries no `exp`. */
  const NullExpirationAfter: string :=
    "Cannot invoke \"java.util.Date.after(java.util.Date)\" because \"expiration\" is null"
  const NullExpirationBefore: string :=
    "Cannot invoke \"java.util.Date.before(java.util.Date)\" because \"expiration\" is null"

  /** `jwt.secret`, `jwt.expiration` (milliseconds) and the configured issuer. */
  datatype JwtConfig = JwtConfig(secretKey: string, expirationTime: Long, issuer: string)

  /** Turns a parse outcome into what the Java call returns or throws. */
  function Throwing<T>(r: Result<T, JwtError>): Result<T, Exception>
  {
    match r
    case Success(v) => Success(v)
    case Failure(e) => Failure(JwtException(e))
  }

  datatype JwtService = JwtService(config: JwtConfig)
  {
    /** The key built once by the constructor. */
    const key: Key := KeyOf(config.secretKey)

    /**
     * The key `getSigningKey()` builds on every call. Its construction is the
     * constructor's, so it is the same key.
     */
    function SigningKey(): (k: Key)
      ensures k == key
    {
      KeyOf(config.secretKey)
    }

    /** The claims `generateToken` hands to the builder at time `now`. */
    function BuildClaims(userId: Long, email: string, now: Long): (c: Claims)
      ensures c.sub.Some? && ParseLong(c.sub.value) == Some(userId)
      ensures c.email == Some(email) && c.iss == Some(config.issuer) && c.iat == Some(now)
      ensures c.exp.Some? && (c.exp.value - (now + config.expirationTime)) % TwoTo64 == 0
      ensures MinLong <= now + config.expirationTime <= MaxLong ==>
        c.exp.value - c.iat.value == config.expirationTime
    {
      LongRoundTrip(userId);
      Claims(Some(IntToString(userId)), Some(email), Some(config.issuer), Some(now),
             Some(Wrap64(now + config.expirationTime)))
    }

    /**
     * `generateToken(userId, email)` at time `now`: three segments, the last of
     * which is the service key's signature over the first two.
     */
    function GenerateToken(userId: Long, email: string, now: Long): (t: string)
      ensures var parts := SplitAll(t, '.');
        |parts| == 3 && parts[0] == Header && parts[2] == Mac(key, parts[0] + "." + parts[1])
    {
      var c := BuildClaims(userId, email, now);
      SignedParts(key, c);
      Sign(key, c)
    }

    /** The last instant, in milliseconds, at which a token issued at `issuedAt` still parses. */
    function ExpiryMillis(issuedAt: Long): Long
    {
      WholeSeconds(Some(Wrap64(issuedAt + config.expirationTime))).value
    }

    /**
     * `getUserIdFromJwt`: the subject, or what the parser throws. Parsing with
     * the constructor's key, it agrees with `getAllClaimsFromToken`.
     */
    function GetUserIdFromJwt(token: string, now: Long): (r: Result<Option<string>, Exception>)
      ensures r.Success? <==> GetAllClaimsFromToken(token, now).Success?
      ensures r.Success? ==> r.value == GetAllClaimsFromToken(token, now).value.sub
      ensures r.Failure? ==> r == Failure(GetAllClaimsFromToken(token, now).error)
    {
      match Parse(key, token, now)
      case Success(c) => Success(c.sub)
      case Failure(e) => Failure(JwtException(e))
    }

    /** `getEmailFromJwt`: the "email" claim, or what the parser throws. */
    function GetEmailFromJwt(token: string, now: Long): (r: Result<Option<string>, Exception>)
      ensures r.Success? <==> GetAllClaimsFromToken(token, now).Success?
      ensures r.Success? ==> r.value == GetAllClaimsFromToken(token, now).value.email
      ensures r.Failure? ==> r == Failure(GetAllClaimsFromToken(token, now).error)
    {
      match Parse(key, token, now)
      case Success(c) => Success(c.email)
      case Failure(e) => Failure(JwtException(e))
    }

    /**
     * `isTokenFormatValid`: `token.split("\\.")` has exactly three parts; a null
     * token (`None`) makes `split` throw, which the catch turns into false.
     */
    function IsTokenFormatValid(token: Option<string>): (b: bool)
      ensures token.None? ==> !b
      ensures token.Some? && '.' !in token.value ==> !b
      ensures b ==> Count(token.value, '.') >= 2
    {
      match token
      case None => false
      case Some(t) => |Split(t, '.')| == 3
    }

    /**
     * `isSignatureValid`: only a SignatureException is caught and turned into
     * false; an expired or malformed token makes the call throw.
     */
    function IsSignatureValid(token: string, now: Long): (r: Result<bool, Exception>)
      ensures r == Success(true) <==> Parse(key, token, now).Success?
      ensures r == Success(false) <==> Parse(key, token, now) == Failure(BadSignature)
      ensures r.Failure? <==> Parse(key, token, now) in {Failure(Expired), Failure(Malformed)}
      ensures r.Failure? ==> r.error == JwtException(Parse(key, token, now).error)
    {
      match Parse(SigningKey(), token, now)
      case Success(_) => Success(true)
      case Failure(BadSignature) => Success(false)
      case Failure(e) => Failure(JwtException(e))
    }

    /**
     * `getAllClaimsFromToken`: the claims of a token carrying the service key's
     * signature and not yet expired, or the parser's exception.
     */
    function GetAllClaimsFromToken(token: string, now: Long): (r: Result<Claims, Exception>)
      ensures r.Success? <==> Parse(key, token, now).Success?
      ensures r.Success? ==>
        r.value == Parse(key, token, now).value && (r.value.exp.None? || now <= r.value.exp.value)
      ensures r.Failure? ==> r.error == JwtException(Parse(key, token, now).error)
    {
      Throwing(Parse(SigningKey(), token, now))
    }

    /** `getClaimFromToken(token, resolver)`: `resolver` applied to the parsed claims. */
    function GetClaimFromToken<T>(token: string, now: Long, resolver: Claims -> T): (r: Result<T, Exception>)
      ensures r.Success? <==> Parse(key, token, now).Success?
      ensures r.Success? ==> r.value == resolver(Parse(key, token, now).value)
      ensures r.Failure? ==> r.error == JwtException(Parse(key, token, now).error)
    {
      match GetAllClaimsFromToken(token, now)
      case Success(c) => Success(resolver(c))
      case Failure(e) => Failure(e)
    }

    /**
     * `isTokenExpired`, as written: true when the expiration is strictly after
     * `now`, false when the parser reports expiry. A token without `exp` makes
     * `expiration.after` throw a NullPointerException; other parse failures
     * propagate.
     */
    function IsTokenExpired(token: string, now: Long): (r: Result<bool, Exception>)
      ensures r == Success(true) <==>
        exists c :: Parse(key, token, now) == Success(c) && c.exp.Some? && c.exp.value > now
      ensures Parse(key, token, now) == Failure(Expired) ==> r == Success(false)
      ensures Parse(key, token, now).Failure? && Parse(key, token, now) != Failure(Expired) ==>
        r == Failure(JwtException(Parse(key, token, now).error))
      ensures Parse(key, token, now).Success? ==>
        r == (if Parse(key, token, now).value.exp.None? then Failure(NullPointerException(NullExpirationAfter))
              else Success(Parse(key, token, now).value.exp.value > now))
    {
      match GetClaimFromToken<Option<Long>>(token, now, (c: Claims) => c.exp)
      case Success(None) =>
        Failure(NullPointerException(NullExpirationAfter))
      case Success(Some(expiration)) => Success(expiration > now)
      case Failure(JwtException(Expired)) => Success(false)
      case Failure(e) => Failure(e)
    }

    /**
     * `isTokenExpired` as its documentation describes it: true when the parser
     * reports expiry, otherwise whether the expiration lies before `now`.
     */
    function IsTokenExpiredIntended(token: string, now: Long): (r: Result<bool, Exception>)
      ensures Parse(key, token, now) == Failure(Expired) ==> r == Success(true)
      ensures r == Success(true) ==> Parse(key, token, now) == Failure(Expired)
      ensures Parse(key, token, now).Failure? && Parse(key, token, now) != Failure(Expired) ==>
        r == Failure(JwtException(Parse(key, token, now).error))
      ensures Parse(key, token, now).Success? ==>
        r == (if Parse(key, token, now).value.exp.None? then Failure(NullPointerException(NullExpirationBefore))
              else Success(false))
    {
      match GetClaimFromToken<Option<Long>>(token, now, (c: Claims) => c.exp)
      case Success(None) =>
        Failure(NullPointerException(NullExpirationBefore))
      case Success(Some(expiration)) => Success(expiration < now)
      case Failure(JwtException(Expired)) => Success(true)
      case Failure(e) => Failure(e)
    }

    /**
     * `isIssuerToken`: the configured issuer `equals` the token's `iss`
     * (false when `iss` is missing); parse failures propagate.
     */
    function IsIssuerToken(token: string, now: Long): (r: Result<bool, Exception>)
      ensures r.Failure? <==> Parse(key, token, now).Failure?
      ensures r == Success(true) <==>
        exists c :: Parse(key, token, now) == Success(c) && c.iss == Some(config.issuer)
      ensures r.Failure? ==> r.error == JwtException(Parse(key, token, now).error)
    {
      match GetClaimFromToken<Option<string>>(token, now, (c: Claims) => c.iss)
      case Success(tokenIssuer) => Success(tokenIssuer == Some(config.issuer))
      case Failure(e) => Failure(e)
    }

    /** `isBlackListedToken`: a read of the blacklist table and nothing else. */
    function IsBlackListedToken(repository: BlacklistedTokenRepository, token: string): (b: bool)
      reads repository
      ensures b <==> exists i :: 0 <= i < |repository.rows| && repository.rows[i].token == token
    {
      repository.ExistsByToken(token)
    }

    // -------------------------------------------------------------------
    // Properties

    /** Parsing a generated token at time `t`: its claims if `t` is not past the expiry. */
    lemma GeneratedTokenParses(userId: Long, email: string, issuedAt: Long, t: Long)
      ensures var c := Serialized(BuildClaims(userId, email, issuedAt));
        && c.exp == Some(ExpiryMillis(issuedAt))
        && Parse(key, GenerateToken(userId, email, issuedAt), t)
             == if t > ExpiryMillis(issuedAt) then Failure(Expired) else Success(c)
    {
      var c := BuildClaims(userId, email, issuedAt);
      assert c.exp == Some(Wrap64(issuedAt + config.expirationTime));
      assert Serialized(c).exp == Some(ExpiryMillis(issuedAt));
      SignParseRoundTrip(key, c, t);
    }

    /**
     * A generated token carries the decimal user id as `sub`, the email, the
     * configured issuer, and `iat`/`exp` that are `now` and `now + TTL` in whole
     * seconds; all of it reads back until the expiry.
     */
    lemma GeneratedTokenClaims(userId: Long, email: string, issuedAt: Long, t: Long)
      requires t <= ExpiryMillis(issuedAt)
      ensures var r := GetAllClaimsFromToken(GenerateToken(userId, email, issuedAt), t);
        && r.Success?
        && r.value.sub == Some(IntToString(userId))
        && r.value.email == Some(email)
        && r.value.iss == Some(config.issuer)
        && r.value.iat == WholeSeconds(Some(issuedAt))
        && r.value.exp == WholeSeconds(Some(Wrap64(issuedAt + config.expirationTime)))
    {
      var token := GenerateToken(userId, email, issuedAt);
      GeneratedTokenParses(userId, email, issuedAt, t);
      assert GetAllClaimsFromToken(token, t) == Success(Serialized(BuildClaims(userId, email, issuedAt)));
      SignedClaims(userId, email, issuedAt);
    }

    lemma SignedClaims(userId: Long, email: string, issuedAt: Long)
      ensures var c := Serialized(BuildClaims(userId, email, issuedAt));
        && c.sub == Some(IntToString(userId))
        && c.email == Some(email)
        && c.iss == Some(config.issuer)
        && c.iat == WholeSeconds(Some(issuedAt))
        && c.exp == WholeSeconds(Some(Wrap64(issuedAt + config.expirationTime)))
    {
    }

    /** Round trip: until the expiry, the subject and email of a generated token read back. */
    lemma SubjectAndEmailRoundTrip(userId: Long, email: string, issuedAt: Long, t: Long)
      requires t <= ExpiryMillis(issuedAt)
      ensures GetUserIdFromJwt(GenerateToken(userId, email, issuedAt), t) == Success(Some(IntToString(userId)))
      ensures GetEmailFromJwt(GenerateToken(userId, email, issuedAt), t) == Success(Some(email))
    {
      GeneratedTokenParses(userId, email, issuedAt, t);
    }

    /**
     * After the expiry every reader throws the expiry exception; in particular
     * `isSignatureValid` throws instead of answering false.
     */
    lemma ExpiredTokenThrows(userId: Long, email: string, issuedAt: Long, t: Long)
      requires t > ExpiryMillis(issuedAt)
      ensures var token := GenerateToken(userId, email, issuedAt);
        && GetUserIdFromJwt(token, t) == Failure(JwtException(Expired))
        && GetEmailFromJwt(token, t) == Failure(JwtException(Expired))
        && GetAllClaimsFromToken(token, t) == Failure(JwtException(Expired))
        && IsSignatureValid(token, t) == Failure(JwtException(Expired))
    {
      GeneratedTokenParses(userId, email, issuedAt, t);
    }

    /**
     * `isTokenExpired` is inverted: on a generated token it answers true exactly
     * while the token is still accepted (strictly before its expiry instant) and
     * false from the expiry on.
     */
    lemma IsTokenExpiredInverted(userId: Long, email: string, issuedAt: Long, t: Long)
      ensures IsTokenExpired(GenerateToken(userId, email, issuedAt), t) == Success(t < ExpiryMillis(issuedAt))
    {
      GeneratedTokenParses(userId, email, issuedAt, t);
    }

    /** The intended check answers true on a generated token exactly once it is past its expiry. */
    lemma IsTokenExpiredIntendedCorrect(userId: Long, email: string, issuedAt: Long, t: Long)
      ensures IsTokenExpiredIntended(GenerateToken(userId, email, issuedAt), t) == Success(t > ExpiryMillis(issuedAt))
    {
      GeneratedTokenParses(userId, email, issuedAt, t);
    }

    /** A token with a forged signature segment is reported as an invalid signature, even after expiry. */
    lemma ForgedSignatureInvalid(c: Claims, sig: string, t: Long)
      requires sig != "" && '.' !in sig && sig != Mac(key, Header + "." + Payload(c))
      ensures IsSignatureValid(Header + "." + Payload(c) + "." + sig, t) == Success(false)
    {
      TamperedSignatureRejected(key, c, sig, t);
    }

    /** A generated token passes the issuer check until it expires. */
    lemma GeneratedTokenIssuer(userId: Long, email: string, issuedAt: Long, t: Long)
      requires t <= ExpiryMillis(issuedAt)
      ensures IsIssuerToken(GenerateToken(userId, email, issuedAt), t) == Success(true)
    {
      GeneratedTokenParses(userId, email, issuedAt, t);
    }

    /**
     * A token signed with the right key but carrying another issuer, or none,
     * fails the issuer check (as long as it parses).
     */
    lemma ForeignIssuerRejected(c: Claims, t: Long)
      requires c.iss != Some(config.issuer)
      requires Serialized(c).exp.None? || t <= Serialized(c).exp.value
      ensures IsIssuerToken(Sign(key, c), t) == Success(false)
    {
      SignParseRoundTrip(key, c, t);
    }

    /**
     * `isTokenFormatValid` on a string holds exactly when, once the trailing dots
     * are trimmed, something is left and it holds exactly two dots.
     */
    lemma FormatValidIff(t: string)
      ensures IsTokenFormatValid(Some(t)) <==>
        TrimTrailing(t, '.') != "" && Count(TrimTrailing(t, '.'), '.') == 2
    {
      SplitLength(t, '.');
      CountTrimTrailing(t, '.');
    }

    lemma FormatExamplesValid()
      ensures IsTokenFormatValid(Some("a.b.c"))
      ensures IsTokenFormatValid(Some("a.b.c."))
    {
      SplitAllThree("a", "b", "c", '.');
      assert "a.b.c" == "a" + "." + "b" + "." + "c";
      assert Split("a.b.c", '.') == ["a", "b", "c"];
      SplitAllAppendDelimiter("a.b.c", '.');
      assert "a.b.c." == "a.b.c" + ".";
      assert Split("a.b.c.", '.') == ["a", "b", "c"];
    }

    lemma FormatExampleEmptySegment()
      ensures IsTokenFormatValid(Some("a..c"))
    {
      SplitAllThree("a", "", "c", '.');
      assert "a..c" == "a" + "." + "" + "." + "c";
      assert Split("a..c", '.') == ["a", "", "c"];
    }

    lemma FormatExamplesTooFew()
      ensures !IsTokenFormatValid(Some("a.b"))
      ensures !IsTokenFormatValid(Some(""))
      ensures !IsTokenFormatValid(None)
    {
      SplitAllAppendPlain([], "a", '.');
      assert [] + "a" == "a";
      assert SplitAll("a", '.') == ["a"];
      SplitAllAppendDelimiter("a", '.');
      assert "a." == "a" + ".";
      assert SplitAll("a.", '.') == ["a", ""];
      SplitAllAppendPlain("a.", "b", '.');
      assert "" + "b" == "b";
      assert "a.b" == "a." + "b";
      assert SplitAll("a.b", '.') == ["a", "b"];
      assert Split("a.b", '.') == ["a", "b"];
      assert Split("", '.') == [""];
    }

    lemma FormatExampleFourSegments()
      ensures !IsTokenFormatValid(Some("a.b.c.d"))
    {
      SplitAllThree("a", "b", "c", '.');
      assert "a.b.c" == "a" + "." + "b" + "." + "c";
      SplitAllAppendPiece("a.b.c", "d", '.');
      assert "a.b.c.d" == "a.b.c" + "." + "d";
      assert SplitAll("a.b.c.d", '.') == ["a", "b", "c", "d"];
      assert "a.b.c.d"[1] == '.';
      assert Split("a.b.c.d", '.') == ["a", "b", "c", "d"];
    }

    lemma FormatExampleOnlyDots()
      ensures !IsTokenFormatValid(Some("..."))
    {
      SplitLength("...", '.');
      assert TrimTrailing("...", '.') == "";
      assert "..."[0] == '.';
    }

    /** Every generated token has the three-segment format. */
    lemma GeneratedTokenFormatValid(userId: Long, email: string, issuedAt: Long)
      ensures IsTokenFormatValid(Some(GenerateToken(userId, email, issuedAt)))
    {
      var c := BuildClaims(userId, email, issuedAt);
      var token := GenerateToken(userId, email, issuedAt);
      SignedParts(key, c);
      var parts := SplitAll(token, '.');
      assert '.' in token by {
        assert token[|Header|] == '.';
      }
      assert parts[2] != "";
      assert DropTrailingEmpty(parts) == parts;
    }
  }
}

=== FILE: Resources.dfy ===
/**
 * The response holders the controllers return (`MessageResource`,
 * `ErrorResource`, `UserResource`, `LoginResource`) and the HTTP statuses the
 * core uses.
 */
module Resources {
  import opened JavaLang

  const Ok: int := 200
  const Unauthorized: int := 401
  const UnprocessableEntity: int := 422
  const InternalServerError: int := 500

  datatype MessageResource = MessageResource(message: string)

  /** A top-level message and per-key details. */
  datatype ErrorResource = ErrorResource(message: string, errors: map<string, string>)

  datatype UserResource = UserResource(id: Long, email: string, name: string)

  datatype LoginResource = LoginResource(token: string, user: UserResource)

  /** A response body: one of the holders above, or a bare string. */
  datatype Body =
    | LoginBody(login: LoginResource)
    | ErrorBody(error: ErrorResource)
    | MessageBody(message: MessageResource)
    | TextBody(text: string)

  datatype ResponseEntity = ResponseEntity(status: int, body: Body)
}

=== FILE: UserService.dfy ===
/**
 * `UserService.authenticate`: look the user up by email, check the password,
 * issue a token. Both credential failures become the same ErrorResource.
 */
module UserService {
  import opened Wrappers
  import opened JavaLang
  import opened Resources
  import opened Users
  import opened JwtService

  const CredentialsRejected: string := "メールアドレスあるいはパスワードが正しくありません。"
  const AuthenticationFailed: string := "認証処理中にエラーが発生しました。"

  datatype LoginRequest = LoginRequest(email: string, password: string)

  /** `passwordEncoder.matches(raw, hash)`; the BCrypt check itself is a parameter. */
  type PasswordMatcher = (string, string) -> bool

  /** The ErrorResource both credential failures produce. */
  function CredentialsError(): (b: Body)
    ensures b.ErrorBody? && b.error.message == AuthenticationFailed
    ensures b.error.errors.Keys == {"message"} && b.error.errors["message"] == CredentialsRejected
  {
    ErrorBody(ErrorResource(AuthenticationFailed, map["message" := CredentialsRejected]))
  }

  /** `authenticate(request)` at time `now`. */
  function Authenticate(svc: JwtService, users: seq<User>, matches: PasswordMatcher,
                        request: LoginRequest, now: Long): (b: Body)
    ensures b.LoginBody? || b == CredentialsError()
    ensures b.LoginBody? <==>
      (exists i :: 0 <= i < |users| && users[i].email == request.email
                   && FindByEmail(users, request.email) == Some(users[i])
                   && matches(request.password, users[i].password))
    ensures b.LoginBody? ==>
      (exists i :: 0 <= i < |users| && FindByEmail(users, request.email) == Some(users[i])
                   && matches(request.password, users[i].password)
                   && b.login == LoginResource(svc.GenerateToken(users[i].id, users[i].email, now),
                                               UserResource(users[i].id, users[i].email, users[i].name)))
  {
    match FindByEmail(users, request.email)
    case None => CredentialsError()
    case Some(user) =>
      if !matches(request.password, user.password) then CredentialsError()
      else
        var token := svc.GenerateToken(user.id, user.email, now);
        LoginBody(LoginResource(token, UserResource(user.id, user.email, user.name)))
  }

  /**
   * An unknown email and a wrong password for a known one are answered
   * identically, so a client cannot tell which of the two failed.
   */
  lemma FailuresIndistinguishable(svc: JwtService, users: seq<User>, matches: PasswordMatcher,
                                  unknown: LoginRequest, wrong: LoginRequest, now: Long)
    requires forall i :: 0 <= i < |users| ==> users[i].email != unknown.email
    requires FindByEmail(users, wrong.email).Some? && !matches(wrong.password, FindByEmail(users, wrong.email).value.password)
    ensures Authenticate(svc, users, matches, unknown, now) == Authenticate(svc, users, matches, wrong, now)
  {
  }

  /**
   * A successful login hands out a token that reads back, until it expires, as
   * the user's id (subject) and email.
   */
  lemma LoginTokenCarriesUser(svc: JwtService, users: seq<User>, matches: PasswordMatcher,
                              request: LoginRequest, now: Long, t: Long)
    requires Authenticate(svc, users, matches, request, now).LoginBody?
    requires t <= svc.ExpiryMillis(now)
    ensures var login := Authenticate(svc, users, matches, request, now).login;
      && svc.GetUserIdFromJwt(login.token, t) == Success(Some(IntToString(login.user.id)))
      && svc.GetEmailFromJwt(login.token, t) == Success(Some(request.email))
      && ParseLong(IntToString(login.user.id)) == Some(login.user.id)
  {
    var user := FindByEmail(users, request.email).value;
    svc.SubjectAndEmailRoundTrip(user.id, user.email, now, t);
    LongRoundTrip(user.id);
  }
}

=== FILE: Users.dfy ===
/**
 * The `users` table as the core reads it: `findById` on the primary key and
 * `findByEmail`, over the rows in table order.
 */
module Users {
  import opened Wrappers
  import opened JavaLang

  /** The columns of a `users` row the core reads. */
  datatype User = User(id: Long, name: string, email: string, password: string)

  /** The primary key: no two rows share an id. */
  ghost predicate IdsUnique(users: seq<User>)
  {
    forall i, j :: 0 <= i < j < |users| ==> users[i].id != users[j].id
  }

  /** `findById(id)`: the row with that id, if any. */
  function FindById(users: seq<User>, id: Long): (r: Option<User>)
    ensures r.Some? <==> exists i :: 0 <= i < |users| && users[i].id == id
    ensures r.Some? ==> r.value in users && r.value.id == id
  {
    if users == [] then None
    else if users[0].id == id then Some(users[0])
    else
      var r := FindById(users[1..], id);
      assert forall i :: 0 < i < |users| ==> users[i] == users[1..][i - 1];
      r
  }

  /**
   * `findByEmail(email)`, which the repository interface does not declare:
   * modelled as the first row, in table order, with that email.
   */
  function FindByEmail(users: seq<User>, email: string): (r: Option<User>)
    ensures r.None? <==> forall i :: 0 <= i < |users| ==> users[i].email != email
    ensures r.Some? ==> exists i :: 0 <= i < |users| && users[i] == r.value && users[i].email == email
                                    && forall j :: 0 <= j < i ==> users[j].email != email
  {
    if users == [] then None
    else if users[0].email == email then Some(users[0])
    else
      var r := FindByEmail(users[1..], email);
      assert forall i :: 0 < i < |users| ==> users[i] == users[1..][i - 1];
      if r.Some? then
        var k :| 0 <= k < |users[1..]| && users[1..][k] == r.value && users[1..][k].email == email
                 && forall j :: 0 <= j < k ==> users[1..][j].email != email;
        assert users[k + 1] == r.value;
        r
      else r
  }

  /** With unique ids, the row `findById` returns for a row's id is that row. */
  lemma {:induction false} FindByIdOfRow(users: seq<User>, i: nat)
    requires IdsUnique(users) && i < |users|
    ensures FindById(users, users[i].id) == Some(users[i])
  {
    if i > 0 {
      assert users[0].id != users[i].id;
      assert IdsUnique(users[1..]) by {
        forall a, b | 0 <= a < b < |users[1..]| ensures users[1..][a].id != users[1..][b].id {
          assert users[1..][a] == users[a + 1] && users[1..][b] == users[b + 1];
        }
      }
      FindByIdOfRow(users[1..], i - 1);
    }
  }
}

=== FILE: Wrappers.dfy ===
/** Option and Result, the two shapes every fallible operation of the model returns. */
module Wrappers {

  datatype Option<+T> = None | Some(value: T)

  /** A Java call either returns a value or throws; `Failure` carries what it throws. */
  datatype Result<+T, +E> = Success(value: T) | Failure(error: E)
}
